=== FILE: README.md ===
# confparse in Dafny

A model of `confparse.h`, a header-only C library. It parses INI-like text
into a flat, ordered table of entries and answers typed lookups against that
table. The model works over `seq<char>` and uses two datatypes:
`Entry = Marker(prefix) | Value(key, data)` for a table slot, and
`Scope = Root | Sub(prefix)` for the configuration or a subsection view.

The modules follow the library's parts:

- `Text`: character classes, the C-string view of a buffer (everything
  before the first NUL), and cutting text into the lines the parser's cursor
  visits.
- `Classifier`: recognisers equivalent to the two POSIX patterns with the
  intended character classes (see Findings), the header `[name]` and the pair
  `key = value`, with the captures they extract. The
  pair test is compiled with `REG_NEWLINE` and runs on the whole remaining
  text. So it holds at a cursor when any line from there on is a pair, and
  the captures come from the first such line (`NextKeyValue`,
  `KeyValueFrom`).
- `Entries`: the table, `cp_total_key` and `cp_is_child_namespace`.
- `Builder`: the two passes of `confparse_parse_string`. Pass 1 is
  `cp_num_lines_in_config`, which counts. Pass 2 fills the table. Both are
  methods with loops, refined against the functional `Scan`.
- `Duplicates`: what the look-ahead of the pair test does to the table. A
  blank, comment or garbage line before a pair adds one more copy of that
  pair.
- `Resolver`: `cp_find_value`, `confparse_has_key` and
  `confparse_get_namespace`.
- `Accessors`: `confparse_get_bool`, `confparse_get_int` (the `sscanf`
  decimal conversion) and `confparse_get_string`.
- `Serializer`: a canonical text form of a table. Parsing it gives the table
  back, which serves as the partner of the parser.
- `AsWritten`: the same patterns over parameterised character classes,
  resolved as a POSIX matcher resolves them, including backing off a greedy
  blank run that leaves no key or name. With the classes as the C literals
  actually spell them they are the code as written, characterised by
  `WrittenHeaderIff` and `WrittenKeyValueIff` (see Findings).
- `Scenarios`: whole-pipeline consequences on small texts.

Three behaviours of the code are easy to miss, and the model keeps them:

- Keys before the first header are stored as `.key`, because the initial
  prefix is `""` and `cp_total_key` always adds the dot. A root lookup uses
  the key verbatim, so a root lookup of a key without a dot never finds such
  a value (`Scenarios.RootLookupMissesValues`); a lookup of `.key` does.
- `confparse_has_key` compares the lookup key with every entry's name,
  markers included, not only with values.
- Duplicate entries come not only from repeated keys but also from any
  blank, comment or garbage line (neither header nor pair) before a pair.

## Model

| member | source | states |
|---|---|---|
| Text.CStringContent | confparse.h:203 | The text the parser sees is the longest prefix of the buffer without a NUL; it stops at the first NUL or at the end. |
| Text.Lines | confparse.h:125-126 | The cursor visits the newline-separated lines of the text; no visited line contains a newline, and a final newline opens no further line. |
| Text.LinesOfJoin | confparse.h:125-126 | Cutting newline-terminated lines apart gives the same lines back, for any lines without newlines. |
| Text.JoinOfLines | confparse.h:125-126 | Rejoining the visited lines gives the text back, with a newline added only when the text did not end with one: line splitting loses nothing. |
| Classifier.ParseHeader | confparse.h:252-264 | A captured header name is non-empty and drawn from letters, digits and dots. |
| Classifier.HeaderIff | confparse.h:220-224 | The header recogniser succeeds with name `n` exactly when the line splits as blanks, `[`, blanks, `n`, blanks, `]`, anything (both directions). |
| Classifier.ParseKeyValue | confparse.h:266-292 | A captured key is non-empty and alphanumeric; a captured value holds no `"` and no newline. |
| Classifier.KeyValueIff | confparse.h:225-230 | The pair recogniser returns `(k, v)` exactly when the line splits as blanks, `k`, blanks, `=`, a maximal blank run or blanks and one `"`, then the maximal value run `v` (both directions). |
| Classifier.HeaderExcludesKeyValue | confparse.h:220-230 | No line is both a header and a pair, so the order of the two tests never matters for one line. |
| Classifier.NextKeyValue | confparse.h:242-250 | The pair test at a cursor finds the first pair line at or after it: that line is a pair, no earlier one from the cursor is, and with no result no line from the cursor is. |
| Classifier.KeyValueFrom | confparse.h:266-292 | A returned key is a non-empty run of key characters and a returned value a run of value characters. |
| Classifier.KeyValueFromFirst | confparse.h:266-292 | The extractors find nothing exactly when no line from the cursor on is a pair line; otherwise they return the captures of some pair line with no pair line before it. |
| Entries.TotalKey | confparse.h:186-194 | The qualified key is the prefix, exactly one dot, then the key, so it fills the `strlen + strlen + 2` buffer with its NUL; an empty prefix still gives a leading dot. |
| Entries.TotalKeySplit | confparse.h:186-194 | A qualified key is the prefix, a dot, and the short key, one character longer than its parts; splitting at the last dot gives both parts back. |
| Entries.TotalKeyInjective | confparse.h:186-194 | Two qualified keys with dot-free short keys are equal only when their prefixes and short keys are. |
| Entries.IsChildNamespace | confparse.h:196-198 | `strncmp` over `strlen(parent)` characters: any parent that is a prefix of the child passes. |
| Entries.ChildNamespaceIsPrefix | confparse.h:196-198 | The child test holds exactly when the parent is a character-level prefix of the child (both directions). |
| Entries.ChildNamespaceExamples | confparse.h:196-198 | `""` is a parent of everything, `data` is a parent of `database`, and `database` is not a parent of `data`. |
| Builder.CountEntryLines | confparse.h:200-210 | Pass 1 counts at most one entry per line. |
| Builder.NoEntryLinesIff | confparse.h:200-210 | Pass 1 counts nothing exactly when no line is a header or a pair (both directions). |
| Builder.Step | confparse.h:109-124 | One iteration of the fill loop: the prefix changes only when the step adds a marker, and then to that marker's name; otherwise it is kept. |
| Builder.StepMarkers | confparse.h:109-116 | A header line adds a marker carrying the name the header captures, and that name becomes the prefix; any other line adds a value or nothing and keeps the prefix. |
| Builder.Scan | confparse.h:108-127 | The fill loop over all cursors, from a given prefix, appends at most one entry per line. |
| Builder.StepMatches | confparse.h:109-116 | Pass 2 appends an entry at a cursor exactly when pass 1's test, header or pair, holds there. |
| Builder.ScanCount | confparse.h:204-205 | The table pass 2 builds has as many entries as pass 1 counts. |
| Builder.NumLinesInConfig | confparse.h:200-210 | The loop counts the cursors at which the header or the pair test holds, which is the size of the table the parser builds. |
| Builder.FillTable | confparse.h:108-127 | Filling while there is room and text left produces exactly `size` entries, the whole table in line order; the loop never stops early for lack of room. |
| Builder.ParseString | confparse.h:100-129 | Parsing a buffer counts, then fills, and the result has exactly the counted number of entries and is the table of the text before the NUL. |
| Builder.StepWellFormed | confparse.h:109-124 | A header entry has a valid name and makes that name the prefix; a value entry's key is the current prefix, a dot and a valid key, its data is a valid value, and the prefix is unchanged. |
| Builder.ScanWellScoped | confparse.h:105-124 | A header replaces the prefix and never extends it: every value key in the table is the most recent header name (or the initial prefix), a dot, and a valid key. |
| Builder.WellScopedIff | confparse.h:105-124 | A table is well scoped exactly when every entry is well formed under the prefix of the most recent marker before it, or the initial prefix when there is none (both directions). |
| Builder.ParseWellScoped | confparse.h:100-129 | Every parsed configuration is well scoped from the root prefix `""`. |
| Duplicates.CountWithStrays | confparse.h:204-205 | The table has one entry per header or pair line, plus one per blank, comment or garbage line (neither header nor pair) that some later pair line follows. |
| Duplicates.StraysCountStrayLines | confparse.h:242-250 | That surplus is non-zero exactly when some blank, comment or garbage line precedes a pair line (both directions). |
| Duplicates.ScanIsDirectIff | confparse.h:116-123 | The table is one entry per header or pair line, each from its own line, if and only if no blank, comment or garbage line (neither header nor pair) precedes a pair line. |
| Duplicates.ScanSplit | confparse.h:108-127 | The table splits at any cursor into the entries made before it and the table of the rest under the prefix then in force. |
| Duplicates.PrefixAtIsLastHeader | confparse.h:105-124 | The prefix the fill loop carries at any line is the name of the last header line before it, or the initial prefix when there is none. |
| Duplicates.HeaderLineMakesItsMarker | confparse.h:109-115 | A header line adds, in its place, a marker carrying its own captured name, and the lines after it are read under that name. |
| Duplicates.PairLineMakesItsPair | confparse.h:116-123 | A key/value line adds the value it captures itself, its key qualified by the prefix in force at that line, between the entries of the lines before and after it. |
| Duplicates.StrayCopiesNextPair | confparse.h:116-123 | A blank, comment or garbage line (neither header nor pair) before a pair line adds a value carrying the next pair's key and value, qualified with the prefix in force at the stray line. |
| Resolver.LookupKey | confparse.h:296-301 | A root lookup uses the key verbatim, with no leading dot; a subsection lookup is the view's prefix, a dot and the key. |
| Resolver.FirstMatch | confparse.h:303-308 | The scan returns the lowest index whose entry name equals the lookup key, or none when no entry has that name. |
| Resolver.Find | confparse.h:294-313 | The lookup finds nothing exactly when no entry, marker or value, bears the lookup key (verbatim at the root, qualified in a subsection); otherwise it returns the first such entry. |
| Resolver.FirstMatchUnique | confparse.h:303-308 | There is only one first match. |
| Resolver.HasKey | confparse.h:131-149 | The whole-table scan reports true exactly when some entry, marker or value, bears the lookup key, which is exactly when the lookup finds something. |
| Resolver.GetNamespace | confparse.h:151-156 | A subsection view is returned exactly when the first match is a marker, and its prefix is the lookup key. |
| Resolver.ValueHidesLaterMarker | confparse.h:151-156 | A value whose key equals a later marker's name, with no such marker before it, hides that marker from the subsection lookup. |
| Accessors.GetBool | confparse.h:158-162 | True exactly when the first match is a value whose data is the text `true`. |
| Accessors.GetString | confparse.h:180-184 | None exactly when the key is absent; otherwise the first match's data, unchanged. |
| Accessors.GetInt | confparse.h:164-170 | 0 when the key is absent or its data holds no number; otherwise the signed decimal prefix of the first match's data, within 64 bits. |
| Accessors.ScanDecimal | confparse.h:168 | The conversion succeeds only if the text holds a digit, and text starting with a digit always reads as a non-negative number. |
| Accessors.ScanDecimalIff | confparse.h:168 | The `%` PRId64 conversion yields `n` exactly when the text is white space, an optional sign, and a maximal digit run whose signed value is `n` (both directions). |
| Accessors.ScanFormatted | confparse.h:168 | After any white space, the decimal spelling of any integer, followed by any non-digit text, reads back as that integer. |
| Accessors.ScanReadsLeadingDigits | confparse.h:168 | `12abc` reads as 12. |
| Accessors.ScanSkipsSpaceAndSign | confparse.h:168 | ` -7 ;` reads as -7. |
| Accessors.ScanNeedsADigit | confparse.h:168 | `abc` and `- 5` do not read as numbers, so the accessor keeps 0. |
| Serializer.ScanOfRender | confparse.h:108-127 | Running pass 2 over the canonical lines of any well-scoped table gives back that table, entry for entry, by induction over the table. |
| Serializer.RoundTrip | confparse.h:100-129 | Writing out any well-scoped table and parsing the text back, from the same prefix, gives the same table. |
| Serializer.ParseSerializeParse | confparse.h:100-129 | Parsing the canonical text of a parsed configuration gives the same configuration. |
| Scenarios.RootLookupMissesValues | confparse.h:294-301 | A root lookup of a key without a dot never finds a value in a parsed configuration, because root values are stored as `.key`. |
| Scenarios.SectionScenario | confparse.h:100-129 | `[db]` then `port = "5432"` gives a marker and the value `db.port`; the subsection view reads `5432`; a root lookup of `port` finds nothing. |
| Scenarios.RepeatedSectionScenario | confparse.h:164-170 | A section repeated with the same key keeps both values, and the integer lookup in the section reads the first one, 1. |
| Scenarios.CommentDuplicatesScenario | confparse.h:116-123 | A comment line before `k = "v"` makes the table hold the root value `.k` twice. |
| Scenarios.StrayThenPair | confparse.h:116-123 | A line that is neither header nor pair, followed by a pair line, yields that line's pair twice, both qualified with the prefix in force (the general case, with lines in between, is `Duplicates.StrayCopiesNextPair`). |
| AsWritten.SegmentIff | confparse.h:220-230 | The recogniser of `blank* (x+) blank* t` succeeds exactly on the split a POSIX matcher picks: the leading blank run as long as any match allows, then the capture as long as any match allows (both directions). |
| AsWritten.WrittenHeaderIff | confparse.h:220-224 | With the classes as written, the header recogniser returns `n` exactly when the header pattern matches with the capture `n` that a POSIX matcher picks (both directions). |
| AsWritten.WrittenKeyValueIff | confparse.h:225-230 | With the classes as written, the pair recogniser returns `(k, v)` exactly when the pair pattern matches with the captures `k` and `v` that a POSIX matcher picks (both directions). |
| AsWritten.IntendedInstance | confparse.h:212-230 | With the intended classes, the parameterised recognisers are exactly the model's: no blank is a key or name character, so nothing backs off. |
| AsWritten.TabIndentedPairIgnored | confparse.h:213 | A tab-indented pair is rejected by the pattern as written but read by the intended one. |
| AsWritten.UnquotedValueLosesLeadingT | confparse.h:213 | As written, `flag = true` reads as `rue`; the intended pattern reads `true`. |
| AsWritten.LeadingTDropsFromKey | confparse.h:213 | As written, `timeout = 30` stores the key `imeout`; the intended pattern reads `timeout`. |
| AsWritten.LeadingTDropsFromName | confparse.h:213 | As written, `[test]` names the subsection `est`; the intended pattern reads `test`. |
| AsWritten.LoneTKeyBacksOff | confparse.h:213 | As written, `t = 1` still has the key `t`: the blank run backs off to leave the key non-empty. |
| AsWritten.LoneTNameBacksOff | confparse.h:213 | As written, `[t]` still names the subsection `t`: the blank run after `[` backs off. |
| AsWritten.BackslashEndsValue | confparse.h:229 | As written, a backslash ends an unquoted value (`C:\tmp` reads as `C:`); the intended pattern keeps it. |
| AsWritten.BackslashInHeaderName | confparse.h:215 | As written, `[a\b]` is a header named `a\b`; the intended name class rejects it. |

## Left out

- `confparse_parse_file` (file access and reading) is not modelled. The
  model takes the whole text as input.
- `confparse_get_float` is left out: it parses doubles with `sscanf`, and
  the model has no floating point.
- The `printf` in `cp_find_value` and `cp_debug_config` are left out
  because they only produce output.
- Memory management is left out:
  - `malloc`/`free`;
  - regex objects that are never freed;
  - unchecked allocation failures;
  - the one-byte-past-end NUL write in the capture functions;
  - the `strchr(...) + 1` pointer trick, which is modelled as a plain split
    on newlines.
- The POSIX regex engine is not modelled. Only recognisers equivalent to the
  two patterns are. The comment and newline pattern fragments add nothing,
  because each pattern ends in `.*` or the newline fragment goes unused.
- `confparse.hpp` is not part of this model. It is a pass-through C++
  wrapper, and it calls functions that `confparse.h` does not define.
- The example driver programs are not part of this model.
- Accessors.GetBool: requires `Readable`, i.e. the first match is not a
  marker. When it is, the C code reads the marker's configuration pointer as
  string data, which is undefined behaviour.
- Accessors.GetString: requires `Readable`, for the same reason.
- Accessors.GetInt: requires `Readable`, and also `IntInRange`. The number
  read must fit in 64 bits, because `sscanf` overflow is undefined behaviour
  and is not modelled.
- The main model uses the intended character classes (blank = space or tab,
  no backslash in names, backslash allowed in values). The classes as
  written appear only in `AsWritten`; see Findings.

## Findings

| source | as written | input that shows it | evidently intended | confidence | as-written member | corrected member |
|---|---|---|---|---|---|---|
| confparse.h:213 | The blank class `[ \t]` is a POSIX bracket expression, so it holds space, backslash and the letter `t`, not tab. | `\tport = 80` is not a pair. | Blanks are space and tab. | not executed | AsWritten.TabIndentedPairIgnored | Classifier.KeyValueIff |
| confparse.h:213 | The same class counts the letter `t` as a blank, so a leading `t` of a key, name or value is swallowed by the blank run before it. | `timeout = 30` stores the key `imeout`; `[test]` names the section `est`; `flag = true` reads as `rue`. | Blanks are space and tab. | not executed | AsWritten.LeadingTDropsFromKey | Classifier.KeyValueIff |
| confparse.h:229 | The value class `[^\n\\"]` also excludes backslash, so a backslash ends an unquoted value. | `dir = C:\tmp` reads as `C:`. | The value runs up to a quote or newline. | not executed | AsWritten.BackslashEndsValue | Classifier.KeyValueIff |
| confparse.h:215 | The name class `[a-zA-Z0-9\.]` also admits backslash. | `[a\b]` is a header named `a\b`. | Names are letters, digits and dots. | not executed | AsWritten.BackslashInHeaderName | Classifier.HeaderIff |

=== FILE: accessors.dfy ===
/**
  The typed accessors of confparse.h: `confparse_get_bool`, `confparse_get_int`
  and `confparse_get_string`.  Each reads the first match of the lookup key;
  an absent key gives the type's fallback.
 */
module Accessors {
  import opened Wrappers
  import opened Text
  import opened Entries
  import opened Resolver

  const Int64Min: int := -0x8000_0000_0000_0000
  const Int64Max: int := 0x7FFF_FFFF_FFFF_FFFF

  /**
    The accessors read the `data` slot of the first match.  When that match is
    a marker, the slot holds the marker's configuration pointer, not a string,
    so the C behaviour is undefined; callers must not look up such a key.
   */
  predicate Readable(cfg: Config, scope: Scope, key: string) {
    var r := Find(cfg, scope, key);
    r.None? || r.value.Value?
  }

  /** `confparse_get_bool`: true exactly when the first match holds the text `true`. */
  function GetBool(cfg: Config, scope: Scope, key: string): (b: bool)
    requires Readable(cfg, scope, key)
    ensures b <==> exists i :: IsFirstMatch(cfg.entries, LookupKey(scope, key), i)
                                && cfg.entries[i] == Value(LookupKey(scope, key), "true")
  {
    match Find(cfg, scope, key)
    case None => false
    case Some(e) => e.data == "true"
  }

  /** `confparse_get_string`: the first match's data unchanged, or none when the key is absent. */
  function GetString(cfg: Config, scope: Scope, key: string): (r: Option<string>)
    requires Readable(cfg, scope, key)
    ensures r.None? <==> Absent(cfg.entries, LookupKey(scope, key))
    ensures r.Some? ==> exists i :: IsFirstMatch(cfg.entries, LookupKey(scope, key), i)
                                    && cfg.entries[i] == Value(LookupKey(scope, key), r.value)
  {
    match Find(cfg, scope, key)
    case None => None
    case Some(e) => Some(e.data)
  }

  function DigitValue(c: char): int {
    c as int - '0' as int
  }

  /** The number a run of decimal digits spells, most significant first. */
  function DecimalValue(ds: string): nat
    requires All(ds, IsDigit)
  {
    if ds == [] then 0
    else 10 * DecimalValue(ds[..|ds| - 1]) + DigitValue(ds[|ds| - 1])
  }

  /**
    The `%` PRId64 conversion of `sscanf`: skip white space, read an optional
    sign and then as many decimal digits as follow.  With no digit the
    conversion fails (none); otherwise it yields the signed value of those
    digits and ignores the rest.
   */
  function ScanDecimal(s: string): (r: Option<int>)
    ensures r.Some? ==> exists k :: 0 <= k < |s| && IsDigit(s[k])
    ensures |s| > 0 && IsDigit(s[0]) ==> r.Some? && r.value >= 0
  {
    var a := Span(s, 0, IsSpace);
    var b := if a < |s| && (s[a] == '+' || s[a] == '-') then a + 1 else a;
    var c := Span(s, b, IsDigit);
    if b == c then None
    else
      var n: int := DecimalValue(s[b..c]);
      Some(if b > a && s[a] == '-' then -n else n)
  }

  /**
    `s` reads as a number at these positions: white space up to `a`, an
    optional sign, and the maximal digit run `s[b..c]`.
   */
  ghost predicate NumberAt(s: string, a: nat, b: nat, c: nat) {
    && a <= b < c <= |s|
    && Run(s, 0, a, IsSpace)
    && (b == a || (b == a + 1 && (s[a] == '+' || s[a] == '-')))
    && Run(s, b, c, IsDigit)
    && (c == |s| || !IsDigit(s[c]))
  }

  ghost function SignedValue(s: string, a: nat, b: nat, c: nat): int
    requires NumberAt(s, a, b, c)
  {
    var n: int := DecimalValue(s[b..c]);
    if b > a && s[a] == '-' then -n else n
  }

  /** The scan succeeds exactly on texts that read as a number, with that number's value. */
  lemma ScanDecimalIff(s: string, n: int)
    ensures ScanDecimal(s) == Some(n) <==> exists a: nat, b: nat, c: nat :: NumberAt(s, a, b, c) && SignedValue(s, a, b, c) == n
  {
    if ScanDecimal(s) == Some(n) {
      ScanDecimalSound(s);
    }
    if exists a: nat, b: nat, c: nat :: NumberAt(s, a, b, c) && SignedValue(s, a, b, c) == n {
      var a: nat, b: nat, c: nat :| NumberAt(s, a, b, c) && SignedValue(s, a, b, c) == n;
      ScanDecimalComplete(s, a, b, c);
    }
  }

  lemma ScanDecimalSound(s: string)
    requires ScanDecimal(s).Some?
    ensures exists a: nat, b: nat, c: nat :: NumberAt(s, a, b, c) && SignedValue(s, a, b, c) == ScanDecimal(s).value
  {
    var a := Span(s, 0, IsSpace);
    var b := if a < |s| && (s[a] == '+' || s[a] == '-') then a + 1 else a;
    var c := Span(s, b, IsDigit);
    assert NumberAt(s, a, b, c);
  }

  lemma ScanDecimalComplete(s: string, a: nat, b: nat, c: nat)
    requires NumberAt(s, a, b, c)
    ensures ScanDecimal(s) == Some(SignedValue(s, a, b, c))
  {
    assert !IsSpace(s[a]);
    SpanExact(s, 0, a, IsSpace);
    SpanExact(s, b, c, IsDigit);
  }

  /** One decimal digit. */
  function Digit(d: nat): (c: char)
    requires d < 10
    ensures IsDigit(c) && DigitValue(c) == d
  {
    ('0' as int + d) as char
  }

  /** The decimal spelling of `n`, without leading zeros. */
  function FormatNat(n: nat): (s: string)
    ensures |s| > 0 && All(s, IsDigit)
  {
    if n < 10 then [Digit(n)] else FormatNat(n / 10) + [Digit(n % 10)]
  }

  /** The decimal spelling of `n`, with a minus sign when negative. */
  function FormatInt(n: int): string {
    if n < 0 then "-" + FormatNat(-n) else FormatNat(n)
  }

  lemma {:induction false} DecimalOfFormat(n: nat)
    ensures DecimalValue(FormatNat(n)) == n
  {
    if n >= 10 {
      DecimalOfFormat(n / 10);
      var s := FormatNat(n);
      assert s[..|s| - 1] == FormatNat(n / 10);
    }
  }

  /**
    Scanning undoes formatting: after any white space, the spelling of any
    integer reads back as that integer, whatever non-digit text follows it.
   */
  lemma ScanFormatted(ws: string, n: int, rest: string)
    requires All(ws, IsSpace)
    requires rest == [] || !IsDigit(rest[0])
    ensures ScanDecimal(ws + FormatInt(n) + rest) == Some(n)
  {
    var m: nat := if n < 0 then -n else n;
    var f := FormatNat(m);
    var sign := if n < 0 then "-" else "";
    var s := ws + (sign + f) + rest;
    assert FormatInt(n) == sign + f;
    DecimalOfFormat(m);
    SignedDigitsShape(ws, sign, f, rest);
    ScanSignedDigits(s, |ws|, |ws| + |sign|, |ws| + |sign| + |f|, f, n < 0);
  }

  /** A number whose digits spell `f` reads as `f`'s value, negated after a minus sign. */
  lemma ScanSignedDigits(s: string, a: nat, b: nat, c: nat, f: string, neg: bool)
    requires NumberAt(s, a, b, c) && s[b..c] == f
    requires neg <==> b > a && s[a] == '-'
    ensures All(f, IsDigit)
    ensures ScanDecimal(s) == Some(if neg then -(DecimalValue(f) as int) else DecimalValue(f))
  {
    assert forall k :: 0 <= k < |f| ==> f[k] == s[b + k];
    ScanDecimalComplete(s, a, b, c);
  }

  lemma SignedDigitsShape(ws: string, sign: string, f: string, rest: string)
    requires All(ws, IsSpace) && (sign == "" || sign == "-")
    requires |f| > 0 && All(f, IsDigit)
    requires rest == [] || !IsDigit(rest[0])
    ensures var s := ws + (sign + f) + rest;
      && NumberAt(s, |ws|, |ws| + |sign|, |ws| + |sign| + |f|)
      && s[|ws| + |sign|..|ws| + |sign| + |f|] == f
      && (sign == "-" <==> |sign| > 0 && s[|ws|] == '-')
  {
    var s := ws + (sign + f) + rest;
    var a := |ws|;
    var b := a + |sign|;
    var c := b + |f|;
    forall k | 0 <= k < a
      ensures IsSpace(s[k])
    {
      assert s[k] == ws[k];
    }
    forall k | b <= k < c
      ensures s[k] == f[k - b]
    {
    }
    assert s[b..c] == f;
    if c < |s| {
      assert s[c] == rest[0];
    }
    if sign == "-" {
      assert s[a] == '-';
    }
  }

  /**
    The conversion reads the digits at the front and ignores what follows them.
    This and the next two lemmas are examples about one input each; the
    parameter fixed by `requires` only spares the solver unfolding the literal.
   */
  lemma ScanReadsLeadingDigits(s: string)
    requires s == "12abc"
    ensures ScanDecimal(s) == Some(12)
  {
    ScanFormatted("", 12, "abc");
    assert s == "" + FormatInt(12) + "abc";
  }

  /** Leading white space and a sign are read before the digits. */
  lemma ScanSkipsSpaceAndSign(s: string)
    requires s == " -7 ;"
    ensures ScanDecimal(s) == Some(-7)
  {
    ScanFormatted(" ", -7, " ;");
    assert s == " " + FormatInt(-7) + " ;";
  }

  /** With no digit after the white space and optional sign, the conversion fails. */
  lemma ScanNeedsADigit(s: string)
    requires s == "abc" || s == "- 5"
    ensures ScanDecimal(s).None?
  {
    assert !IsSpace(s[0]);
    SpanExact(s, 0, 0, IsSpace);
    var b := if s[0] == '-' then 1 else 0;
    assert !IsDigit(s[b]);
    SpanExact(s, b, b, IsDigit);
  }

  /** The first match's value reads as a number that fits in 64 bits, or does not read as one. */
  predicate IntInRange(cfg: Config, scope: Scope, key: string) {
    match Find(cfg, scope, key)
    case Some(Value(_, d)) =>
      (match ScanDecimal(d)
       case Some(n) => Int64Min <= n <= Int64Max
       case None => true)
    case _ => true
  }

  /**
    `confparse_get_int`: 0 when the key is absent or its text holds no number
    (the variable keeps its initial 0 when the conversion fails); otherwise the
    signed decimal prefix of the first match's text.
   */
  function GetInt(cfg: Config, scope: Scope, key: string): (n: int)
    requires Readable(cfg, scope, key) && IntInRange(cfg, scope, key)
    ensures Int64Min <= n <= Int64Max
    ensures Absent(cfg.entries, LookupKey(scope, key)) ==> n == 0
    ensures forall i :: IsFirstMatch(cfg.entries, LookupKey(scope, key), i) ==>
              cfg.entries[i].Value? &&
              n == (match ScanDecimal(cfg.entries[i].data) case Some(v) => v case None => 0)
  {
    match Find(cfg, scope, key)
    case None => 0
    case Some(e) =>
      match ScanDecimal(e.data)
      case Some(v) => v
      case None => 0
  }
}

=== FILE: aswritten.dfy ===
/**
  The two line patterns with the character classes as the C string literals
  actually spell them.  Inside a POSIX bracket expression a backslash is an
  ordinary character, so:
    - the blank class `[ \t]` holds space, backslash and the letter `t`
      (not the tab character);
    - the header name class `[a-zA-Z0-9\.]` also holds a backslash;
    - the value class `[^\n\\"]` also excludes a backslash.
  The written blank class shares `t` with the key class, and `t` and the
  backslash with the name class.  A POSIX matcher then backs off a greedy blank
  run when it leaves nothing for the key or name: `t = 1` has the key `t`,
  while `timeout = 30` has the key `imeout`.

  The recognisers here take the classes as parameters and resolve the
  patterns as a POSIX matcher does, backing off included.  Instantiated with
  the intended classes they are the ones in `Classifier`; instantiated with
  the classes above they are the code as written, and `WrittenHeaderIff` and
  `WrittenKeyValueIff` characterise them.  The remaining lemmas exhibit lines
  on which the two instances differ.

  Each example lemma is about one input.  It takes that input as a parameter
  fixed by `requires x == <literal>` only so that the solver does not unfold
  the literal; it states nothing about other inputs.
 */
module AsWritten {
  import opened Wrappers
  import opened Text
  import opened Classifier

  /** The blank class as written: space, backslash, `t`. */
  predicate WrittenBlank(c: char) {
    c == ' ' || c == '\\' || c == 't'
  }

  /** The header name class as written: letters, digits, dot, backslash. */
  predicate WrittenNameChar(c: char) {
    IsKeyChar(c) || c == '.' || c == '\\'
  }

  /** The value class as written: anything but newline, backslash and `"`. */
  predicate WrittenValueChar(c: char) {
    c != '\n' && c != '\\' && c != '"'
  }

  /** The last index in `[lo, hi)` whose character is in `p`, if there is one. */
  function LastWhere(s: string, lo: nat, hi: nat, p: char -> bool): (r: Option<nat>)
    requires lo <= hi <= |s|
    ensures r.Some? ==> lo <= r.value < hi && p(s[r.value])
    ensures r.Some? ==> forall m :: r.value < m < hi ==> !p(s[m])
    ensures r.None? ==> forall m :: lo <= m < hi ==> !p(s[m])
    decreases hi - lo
  {
    if hi == lo then None
    else if p(s[hi - 1]) then Some(hi - 1)
    else LastWhere(s, lo, hi - 1, p)
  }

  /**
    `line` from `lo` splits as `blank* (x+) blank* t`: the capture is
    `line[i..j]` and the terminator `t` is at `k`.
   */
  ghost predicate SplitAt(line: string, lo: nat, blank: char -> bool, x: char -> bool, t: char, i: nat, j: nat, k: nat) {
    && lo <= i < j <= k < |line|
    && Run(line, lo, i, blank)
    && Run(line, i, j, x)
    && Run(line, j, k, blank)
    && line[k] == t
  }

  /**
    The split a POSIX matcher picks: among all splits, the leading blank run is
    the longest, and then the capture is the longest.
   */
  ghost predicate LongestSplit(line: string, lo: nat, blank: char -> bool, x: char -> bool, t: char, i: nat, j: nat, k: nat) {
    && SplitAt(line, lo, blank, x, t, i, j, k)
    && forall i': nat, j': nat, k': nat :: SplitAt(line, lo, blank, x, t, i', j', k') ==> i' < i || (i' == i && j' <= j)
  }

  /**
    The pattern `blank* (x+) blank* t` from `lo`.  The blank run is greedy; when
    it leaves no `x` character before `t`, it backs off to the last character
    of the run that is also in `x`, which becomes a one-character capture.
   */
  function Segment(line: string, lo: nat, blank: char -> bool, x: char -> bool, t: char): (r: Option<(nat, nat, nat)>)
    requires lo <= |line|
    ensures r.Some? ==> SplitAt(line, lo, blank, x, t, r.value.0, r.value.1, r.value.2)
  {
    var a := Span(line, lo, blank);
    var b := Span(line, a, x);
    if a < b then
      var c := Span(line, b, blank);
      if c < |line| && line[c] == t then Some((a, b, c)) else None
    else if a < |line| && line[a] == t then
      match LastWhere(line, lo, a, x)
      case Some(p) => Some((p, p + 1, a))
      case None => None
    else None
  }

  /** What `Segment` finds is the split a POSIX matcher picks. */
  lemma SegmentSound(line: string, lo: nat, blank: char -> bool, x: char -> bool, t: char)
    requires lo <= |line| && !blank(t) && !x(t)
    requires Segment(line, lo, blank, x, t).Some?
    ensures var r := Segment(line, lo, blank, x, t).value;
      LongestSplit(line, lo, blank, x, t, r.0, r.1, r.2)
  {
    var a := Span(line, lo, blank);
    var b := Span(line, a, x);
    var r := Segment(line, lo, blank, x, t).value;
    forall i': nat, j': nat, k': nat | SplitAt(line, lo, blank, x, t, i', j', k')
      ensures i' < r.0 || (i' == r.0 && j' <= r.1)
    {
      assert i' <= a;
      if a < b {
        assert r.0 == a && r.1 == b;
        assert i' == a ==> j' <= b;
      } else {
        assert line[a] == t && r.1 == r.0 + 1;
        assert i' < a by {
          assert x(line[i']);
        }
        var p := LastWhere(line, lo, a, x).value;
        assert r.0 == p;
        var ci, cn := line[i'], line[p + 1];
        assert p < i' ==> !x(ci);
        assert i' == p && p + 1 < j' ==> x(cn);
      }
    }
  }

  /** Whenever some split exists, `Segment` finds one. */
  lemma SegmentExists(line: string, lo: nat, blank: char -> bool, x: char -> bool, t: char, i: nat, j: nat, k: nat)
    requires lo <= |line| && !blank(t) && !x(t)
    requires SplitAt(line, lo, blank, x, t, i, j, k)
    ensures Segment(line, lo, blank, x, t).Some?
  {
    var a := Span(line, lo, blank);
    var b := Span(line, a, x);
    assert i <= a;
    if a < b {
      assert a < j;
      assert j <= b;
      assert b <= k;
      SpanExact(line, b, k, blank);
    } else {
      assert i < a by {
        assert x(line[i]);
      }
      assert j <= a;
      assert k == a;
      assert LastWhere(line, lo, a, x).Some? by {
        assert x(line[i]);
      }
    }
  }

  /** `Segment` succeeds exactly on the split a POSIX matcher picks (both directions). */
  lemma SegmentIff(line: string, lo: nat, blank: char -> bool, x: char -> bool, t: char, i: nat, j: nat, k: nat)
    requires lo <= |line| && !blank(t) && !x(t)
    ensures Segment(line, lo, blank, x, t) == Some((i, j, k)) <==> LongestSplit(line, lo, blank, x, t, i, j, k)
  {
    if Segment(line, lo, blank, x, t) == Some((i, j, k)) {
      SegmentSound(line, lo, blank, x, t);
    }
    if LongestSplit(line, lo, blank, x, t, i, j, k) {
      SegmentExists(line, lo, blank, x, t, i, j, k);
      SegmentSound(line, lo, blank, x, t);
      var r := Segment(line, lo, blank, x, t).value;
      assert r.0 == i && r.1 == j;
      assert r.2 == k;
    }
  }

  /**
    After `=` at `k`: a greedy blank run, at most one `"`, and the longest run
    of `value` characters, which is the value.  Nothing after it can fail.
   */
  function ValueRun(line: string, k: nat, blank: char -> bool, value: char -> bool): (r: (nat, nat))
    requires k < |line|
    ensures k < r.0 <= r.1 <= |line| && Run(line, r.0, r.1, value)
  {
    var d := Span(line, k + 1, blank);
    var e := if d < |line| && line[d] == '"' then d + 1 else d;
    (e, Span(line, e, value))
  }

  /**
    The value after `=` at `k` is `line[v..w]`: the blank run before it is
    maximal unless a quote ends it, and the value run is maximal.
   */
  ghost predicate ValueAt(line: string, k: nat, blank: char -> bool, value: char -> bool, v: nat, w: nat) {
    && k < v <= w <= |line|
    && (|| (Run(line, k + 1, v, blank) && (v == |line| || (!blank(line[v]) && line[v] != '"')))
        || (Run(line, k + 1, v - 1, blank) && line[v - 1] == '"'))
    && Run(line, v, w, value)
    && (w == |line| || !value(line[w]))
  }

  /** `ValueRun` finds exactly the value positions of the shape (both directions). */
  lemma ValueRunIff(line: string, k: nat, blank: char -> bool, value: char -> bool, v: nat, w: nat)
    requires k < |line| && !blank('"')
    ensures ValueRun(line, k, blank, value) == (v, w) <==> ValueAt(line, k, blank, value, v, w)
  {
    if ValueAt(line, k, blank, value, v, w) {
      if Run(line, k + 1, v, blank) && (v == |line| || (!blank(line[v]) && line[v] != '"')) {
        SpanExact(line, k + 1, v, blank);
      } else {
        SpanExact(line, k + 1, v - 1, blank);
      }
      SpanExact(line, v, w, value);
    }
  }

  /** The header pattern over the given blank and name classes. */
  function HeaderWith(line: string, blank: char -> bool, name: char -> bool): (r: Option<string>)
    ensures r.Some? ==> |r.value| > 0 && All(r.value, name)
  {
    var a := Span(line, 0, blank);
    if a < |line| && line[a] == '[' then
      match Segment(line, a + 1, blank, name, ']')
      case None => None
      case Some((j, k, _)) =>
        assert forall m :: 0 <= m < k - j ==> line[j..k][m] == line[j + m];
        Some(line[j..k])
    else None
  }

  /** The key/value pattern over the given blank and value classes. */
  function KeyValueWith(line: string, blank: char -> bool, value: char -> bool): (r: Option<(string, string)>)
    ensures r.Some? ==> |r.value.0| > 0 && All(r.value.0, IsKeyChar)
    ensures r.Some? ==> All(r.value.1, value)
  {
    match Segment(line, 0, blank, IsKeyChar, '=')
    case None => None
    case Some((i, j, k)) =>
      var (v, w) := ValueRun(line, k, blank, value);
      assert forall m :: 0 <= m < j - i ==> line[i..j][m] == line[i + m];
      assert forall m :: 0 <= m < w - v ==> line[v..w][m] == line[v + m];
      Some((line[i..j], line[v..w]))
  }

  /** The header test as the code spells it. */
  function WrittenParseHeader(line: string): (r: Option<string>)
    ensures r.Some? ==> |r.value| > 0 && All(r.value, WrittenNameChar)
  {
    HeaderWith(line, WrittenBlank, WrittenNameChar)
  }

  /** The key/value test and extractors as the code spells them. */
  function WrittenParseKeyValue(line: string): (r: Option<(string, string)>)
    ensures r.Some? ==> |r.value.0| > 0 && All(r.value.0, IsKeyChar)
    ensures r.Some? ==> All(r.value.1, WrittenValueChar)
  {
    KeyValueWith(line, WrittenBlank, WrittenValueChar)
  }

  /**
    The positions at which a POSIX matcher splits `line` as a header under the
    written classes: blanks up to `[` at `i`, then the name `line[j..k]` and `]`
    at `l`, with the blank run after `[` and then the name as long as possible.
   */
  ghost predicate WrittenHeaderAt(line: string, i: nat, j: nat, k: nat, l: nat) {
    && i < |line|
    && Run(line, 0, i, WrittenBlank)
    && line[i] == '['
    && LongestSplit(line, i + 1, WrittenBlank, WrittenNameChar, ']', j, k, l)
  }

  ghost predicate IsWrittenHeaderLine(line: string, name: string) {
    exists i: nat, j: nat, k: nat, l: nat :: WrittenHeaderAt(line, i, j, k, l) && name == line[j..k]
  }

  /** The written header test accepts exactly the lines the written pattern matches, with its capture. */
  lemma WrittenHeaderIff(line: string, name: string)
    ensures WrittenParseHeader(line) == Some(name) <==> IsWrittenHeaderLine(line, name)
  {
    if WrittenParseHeader(line) == Some(name) {
      WrittenHeaderSound(line);
    }
    if IsWrittenHeaderLine(line, name) {
      var i: nat, j: nat, k: nat, l: nat :| WrittenHeaderAt(line, i, j, k, l) && name == line[j..k];
      WrittenHeaderComplete(line, i, j, k, l);
    }
  }

  lemma WrittenHeaderSound(line: string)
    requires WrittenParseHeader(line).Some?
    ensures IsWrittenHeaderLine(line, WrittenParseHeader(line).value)
  {
    var a := Span(line, 0, WrittenBlank);
    SegmentSound(line, a + 1, WrittenBlank, WrittenNameChar, ']');
    var r := Segment(line, a + 1, WrittenBlank, WrittenNameChar, ']').value;
    assert WrittenHeaderAt(line, a, r.0, r.1, r.2);
  }

  lemma WrittenHeaderComplete(line: string, i: nat, j: nat, k: nat, l: nat)
    requires WrittenHeaderAt(line, i, j, k, l)
    ensures WrittenParseHeader(line) == Some(line[j..k])
  {
    SpanExact(line, 0, i, WrittenBlank);
    SegmentIff(line, i + 1, WrittenBlank, WrittenNameChar, ']', j, k, l);
  }

  /**
    The positions at which a POSIX matcher splits `line` as a pair under the
    written classes: the key `line[i..j]`, `=` at `k` and the value `line[v..w]`,
    with the leading blank run and then the key as long as possible.
   */
  ghost predicate WrittenKeyValueAt(line: string, i: nat, j: nat, k: nat, v: nat, w: nat) {
    && LongestSplit(line, 0, WrittenBlank, IsKeyChar, '=', i, j, k)
    && ValueAt(line, k, WrittenBlank, WrittenValueChar, v, w)
  }

  ghost predicate IsWrittenKeyValueLine(line: string, key: string, value: string) {
    exists i: nat, j: nat, k: nat, v: nat, w: nat :: WrittenKeyValueAt(line, i, j, k, v, w) && key == line[i..j] && value == line[v..w]
  }

  /** The written key/value test accepts exactly the lines the written pattern matches, with its captures. */
  lemma WrittenKeyValueIff(line: string, key: string, value: string)
    ensures WrittenParseKeyValue(line) == Some((key, value)) <==> IsWrittenKeyValueLine(line, key, value)
  {
    if WrittenParseKeyValue(line) == Some((key, value)) {
      WrittenKeyValueSound(line);
    }
    if IsWrittenKeyValueLine(line, key, value) {
      var i: nat, j: nat, k: nat, v: nat, w: nat :| WrittenKeyValueAt(line, i, j, k, v, w) && key == line[i..j] && value == line[v..w];
      WrittenKeyValueComplete(line, i, j, k, v, w);
    }
  }

  lemma WrittenKeyValueSound(line: string)
    requires WrittenParseKeyValue(line).Some?
    ensures IsWrittenKeyValueLine(line, WrittenParseKeyValue(line).value.0, WrittenParseKeyValue(line).value.1)
  {
    SegmentSound(line, 0, WrittenBlank, IsKeyChar, '=');
    var r := Segment(line, 0, WrittenBlank, IsKeyChar, '=').value;
    var vw := ValueRun(line, r.2, WrittenBlank, WrittenValueChar);
    ValueRunIff(line, r.2, WrittenBlank, WrittenValueChar, vw.0, vw.1);
    assert WrittenKeyValueAt(line, r.0, r.1, r.2, vw.0, vw.1);
  }

  lemma WrittenKeyValueComplete(line: string, i: nat, j: nat, k: nat, v: nat, w: nat)
    requires WrittenKeyValueAt(line, i, j, k, v, w)
    ensures WrittenParseKeyValue(line) == Some((line[i..j], line[v..w]))
  {
    SegmentIff(line, 0, WrittenBlank, IsKeyChar, '=', i, j, k);
    ValueRunIff(line, k, WrittenBlank, WrittenValueChar, v, w);
  }

  /**
    With the intended classes the parameterised recognisers are the model's:
    no blank is a key or name character, so the blank run never backs off.
   */
  lemma IntendedInstance(line: string)
    ensures HeaderWith(line, IsBlank, IsNameChar) == ParseHeader(line)
    ensures KeyValueWith(line, IsBlank, IsValueChar) == ParseKeyValue(line)
  {
    IntendedHeader(line);
    IntendedKeyValue(line);
  }

  lemma IntendedHeader(line: string)
    ensures HeaderWith(line, IsBlank, IsNameChar) == ParseHeader(line)
  {
    var a := Span(line, 0, IsBlank);
    if a < |line| && line[a] == '[' {
      var b := Span(line, a + 1, IsBlank);
      assert LastWhere(line, a + 1, b, IsNameChar).None?;
    }
  }

  lemma IntendedKeyValue(line: string)
    ensures KeyValueWith(line, IsBlank, IsValueChar) == ParseKeyValue(line)
  {
    var a := Span(line, 0, IsBlank);
    assert LastWhere(line, 0, a, IsKeyChar).None?;
  }

  /** A greedy split with no backing off and no quote: the captures `KeyValueWith` returns. */
  lemma GreedyCaptures(line: string, blank: char -> bool, value: char -> bool, a: nat, b: nat, c: nat, d: nat, f: nat)
    requires a < b <= c < |line| && line[c] == '='
    requires Span(line, 0, blank) == a && Span(line, a, IsKeyChar) == b && Span(line, b, blank) == c
    requires c < d <= |line| && Span(line, c + 1, blank) == d && (d == |line| || line[d] != '"')
    requires d <= f <= |line| && Span(line, d, value) == f
    ensures KeyValueWith(line, blank, value) == Some((line[a..b], line[d..f]))
  {
  }

  /**
    A tab-indented pair: the written blank class has no tab, so the line is
    not a key/value line and the pair is lost; the intended pattern reads it.
   */
  lemma TabIndentedPairIgnored(line: string)
    requires line == "\tport = 80"
    ensures WrittenParseKeyValue(line).None?
    ensures ParseKeyValue(line) == Some(("port", "80"))
  {
    assert !WrittenBlank(line[0]);
    SpanExact(line, 0, 0, WrittenBlank);
    assert !IsKeyChar(line[0]);
    SpanExact(line, 0, 0, IsKeyChar);
    assert line[0] != '=';
    assert line[1..5] == "port" && line[8..10] == "80";
    assert KeyValueAt(line, 1, 5, 6, 8, 10);
    KeyValueComplete(line, 1, 5, 6, 8, 10);
  }

  /**
    An unquoted value starting with `t`: the blank run after `=` swallows the
    `t`, so `flag = true` reads as `rue` (and a boolean lookup sees false).
   */
  lemma UnquotedValueLosesLeadingT(line: string)
    requires line == "flag = true"
    ensures WrittenParseKeyValue(line) == Some(("flag", "rue"))
    ensures ParseKeyValue(line) == Some(("flag", "true"))
  {
    WrittenFlagTrue(line);
    IntendedFlagTrue(line);
  }

  lemma IntendedFlagTrue(line: string)
    requires line == "flag = true"
    ensures ParseKeyValue(line) == Some(("flag", "true"))
  {
    assert line[0..4] == "flag" && line[7..11] == "true";
    assert KeyValueAt(line, 0, 4, 5, 7, 11);
    KeyValueComplete(line, 0, 4, 5, 7, 11);
  }

  lemma WrittenFlagTrue(line: string)
    requires line == "flag = true"
    ensures WrittenParseKeyValue(line) == Some(("flag", "rue"))
  {
    WrittenFlagTrueRuns(line);
    GreedyCaptures(line, WrittenBlank, WrittenValueChar, 0, 4, 5, 8, 11);
    assert line[0..4] == "flag" && line[8..11] == "rue";
  }

  lemma WrittenFlagTrueRuns(line: string)
    requires line == "flag = true"
    ensures Span(line, 0, WrittenBlank) == 0 && Span(line, 0, IsKeyChar) == 4 && Span(line, 4, WrittenBlank) == 5
    ensures Span(line, 6, WrittenBlank) == 8 && Span(line, 8, WrittenValueChar) == 11
  {
    assert !WrittenBlank(line[0]);
    SpanExact(line, 0, 0, WrittenBlank);
    assert !IsKeyChar(line[4]);
    SpanExact(line, 0, 4, IsKeyChar);
    assert !WrittenBlank(line[5]);
    SpanExact(line, 4, 5, WrittenBlank);
    assert !WrittenBlank(line[8]);
    SpanExact(line, 6, 8, WrittenBlank);
    SpanExact(line, 8, 11, WrittenValueChar);
  }

  /**
    A key starting with `t`: the leading blank run swallows the `t`, so
    `timeout = 30` stores the key `imeout`; the intended pattern reads `timeout`.
   */
  lemma LeadingTDropsFromKey(line: string)
    requires line == "timeout = 30"
    ensures WrittenParseKeyValue(line) == Some(("imeout", "30"))
    ensures ParseKeyValue(line) == Some(("timeout", "30"))
  {
    WrittenTimeout(line);
    IntendedTimeout(line);
  }

  lemma IntendedTimeout(line: string)
    requires line == "timeout = 30"
    ensures ParseKeyValue(line) == Some(("timeout", "30"))
  {
    assert line[0..7] == "timeout" && line[10..12] == "30";
    assert KeyValueAt(line, 0, 7, 8, 10, 12);
    KeyValueComplete(line, 0, 7, 8, 10, 12);
  }

  lemma WrittenTimeout(line: string)
    requires line == "timeout = 30"
    ensures WrittenParseKeyValue(line) == Some(("imeout", "30"))
  {
    assert !WrittenBlank(line[1]);
    SpanExact(line, 0, 1, WrittenBlank);
    assert !IsKeyChar(line[7]);
    SpanExact(line, 1, 7, IsKeyChar);
    assert !WrittenBlank(line[8]);
    SpanExact(line, 7, 8, WrittenBlank);
    assert !WrittenBlank(line[10]);
    SpanExact(line, 9, 10, WrittenBlank);
    SpanExact(line, 10, 12, WrittenValueChar);
    GreedyCaptures(line, WrittenBlank, WrittenValueChar, 1, 7, 8, 10, 12);
    assert line[1..7] == "imeout" && line[10..12] == "30";
  }

  /**
    A key that is only `t`: the greedy blank run leaves no key, so it backs off
    and the key is `t`, as in the intended pattern.
   */
  lemma LoneTKeyBacksOff(line: string)
    requires line == "t = 1"
    ensures WrittenParseKeyValue(line) == Some(("t", "1"))
    ensures ParseKeyValue(line) == Some(("t", "1"))
  {
    assert !WrittenBlank(line[2]);
    SpanExact(line, 0, 2, WrittenBlank);
    assert !IsKeyChar(line[2]);
    SpanExact(line, 2, 2, IsKeyChar);
    assert LastWhere(line, 0, 2, IsKeyChar) == Some(0) by {
      assert !IsKeyChar(line[1]);
    }
    assert !WrittenBlank(line[4]);
    SpanExact(line, 3, 4, WrittenBlank);
    SpanExact(line, 4, 5, WrittenValueChar);
    assert line[0..1] == "t" && line[4..5] == "1";
    assert KeyValueAt(line, 0, 1, 2, 4, 5);
    KeyValueComplete(line, 0, 1, 2, 4, 5);
  }

  /**
    A header name that is only `t`: the blank run after `[` leaves no name, so
    it backs off and the name is `t`, as in the intended pattern.
   */
  lemma LoneTNameBacksOff(line: string)
    requires line == "[t]"
    ensures WrittenParseHeader(line) == Some("t")
    ensures ParseHeader(line) == Some("t")
  {
    assert !WrittenBlank(line[0]);
    SpanExact(line, 0, 0, WrittenBlank);
    assert !WrittenBlank(line[2]);
    SpanExact(line, 1, 2, WrittenBlank);
    assert !WrittenNameChar(line[2]);
    SpanExact(line, 2, 2, WrittenNameChar);
    assert LastWhere(line, 1, 2, WrittenNameChar) == Some(1);
    assert line[1..2] == "t";
    assert HeaderAt(line, 0, 1, 2, 2);
    HeaderComplete(line, 0, 1, 2, 2);
  }

  /**
    A header name starting with `t`: the blank run after `[` swallows the `t`,
    so `[test]` names the subsection `est`; the intended pattern reads `test`.
   */
  lemma LeadingTDropsFromName(line: string)
    requires line == "[test]"
    ensures WrittenParseHeader(line) == Some("est")
    ensures ParseHeader(line) == Some("test")
  {
    assert !WrittenBlank(line[0]);
    SpanExact(line, 0, 0, WrittenBlank);
    assert !WrittenBlank(line[2]);
    SpanExact(line, 1, 2, WrittenBlank);
    assert !WrittenNameChar(line[5]);
    SpanExact(line, 2, 5, WrittenNameChar);
    SpanExact(line, 5, 5, WrittenBlank);
    assert line[2..5] == "est";
    assert line[1..5] == "test";
    assert HeaderAt(line, 0, 1, 5, 5);
    HeaderComplete(line, 0, 1, 5, 5);
  }

  /** A backslash in an unquoted value ends the value as written; the intended value keeps it. */
  lemma BackslashEndsValue(line: string)
    requires line == "dir = C:\\tmp"
    ensures WrittenParseKeyValue(line) == Some(("dir", "C:"))
    ensures ParseKeyValue(line) == Some(("dir", "C:\\tmp"))
  {
    WrittenBackslashValue(line);
    IntendedBackslashValue(line);
  }

  lemma IntendedBackslashValue(line: string)
    requires line == "dir = C:\\tmp"
    ensures ParseKeyValue(line) == Some(("dir", "C:\\tmp"))
  {
    assert line[0..3] == "dir" && line[6..12] == "C:\\tmp";
    assert KeyValueAt(line, 0, 3, 4, 6, 12);
    KeyValueComplete(line, 0, 3, 4, 6, 12);
  }

  lemma WrittenBackslashValue(line: string)
    requires line == "dir = C:\\tmp"
    ensures WrittenParseKeyValue(line) == Some(("dir", "C:"))
  {
    WrittenBackslashRuns(line);
    GreedyCaptures(line, WrittenBlank, WrittenValueChar, 0, 3, 4, 6, 8);
    assert line[0..3] == "dir" && line[6..8] == "C:";
  }

  lemma WrittenBackslashRuns(line: string)
    requires line == "dir = C:\\tmp"
    ensures Span(line, 0, WrittenBlank) == 0 && Span(line, 0, IsKeyChar) == 3 && Span(line, 3, WrittenBlank) == 4
    ensures Span(line, 5, WrittenBlank) == 6 && Span(line, 6, WrittenValueChar) == 8
  {
    assert !WrittenBlank(line[0]);
    SpanExact(line, 0, 0, WrittenBlank);
    assert !IsKeyChar(line[3]);
    SpanExact(line, 0, 3, IsKeyChar);
    assert !WrittenBlank(line[4]);
    SpanExact(line, 3, 4, WrittenBlank);
    assert !WrittenBlank(line[6]);
    SpanExact(line, 5, 6, WrittenBlank);
    assert !WrittenValueChar(line[8]);
    SpanExact(line, 6, 8, WrittenValueChar);
  }

  /** A backslash in a header name is accepted as written; the intended name class refuses it. */
  lemma BackslashInHeaderName(line: string)
    requires line == "[a\\b]"
    ensures WrittenParseHeader(line) == Some("a\\b")
    ensures ParseHeader(line).None?
  {
    assert !WrittenBlank(line[0]);
    SpanExact(line, 0, 0, WrittenBlank);
    assert !WrittenBlank(line[1]);
    SpanExact(line, 1, 1, WrittenBlank);
    assert !WrittenNameChar(line[4]);
    SpanExact(line, 1, 4, WrittenNameChar);
    SpanExact(line, 4, 4, WrittenBlank);
    assert line[1..4] == "a\\b";
    assert !IsBlank(line[0]);
    SpanExact(line, 0, 0, IsBlank);
    assert !IsBlank(line[1]);
    SpanExact(line, 1, 1, IsBlank);
    assert !IsNameChar(line[2]);
    SpanExact(line, 1, 2, IsNameChar);
    assert !IsBlank(line[2]);
    SpanExact(line, 2, 2, IsBlank);
  }
}

=== FILE: builder.dfy ===
/**
  The entry table builder of confparse.h (`confparse_parse_string` and its
  counting pass `cp_num_lines_in_config`).

  Both passes walk the same cursors (the lines of the text) and apply the
  same tests in the same order: the header test on the line at the cursor,
  then the key/value test on everything from the cursor on.  Because the
  latter holds whenever ANY later line is a key/value line, a blank, comment
  or garbage line that precedes a key/value line also yields an entry, a copy
  of that later pair.
 */
module Builder {
  import opened Wrappers
  import opened Text
  import opened Classifier
  import opened Entries

  /** The test both passes apply at the cursor `rest[0]`. */
  predicate Matches(rest: seq<string>)
    requires |rest| > 0
  {
    ParseHeader(rest[0]).Some? || NextKeyValue(rest).Some?
  }

  /** Pass 1: the number of cursors at which the test holds. */
  function CountEntryLines(lines: seq<string>): (n: nat)
    ensures n <= |lines|
  {
    if lines == [] then 0
    else (if Matches(lines) then 1 else 0) + CountEntryLines(lines[1..])
  }

  /** Pass 1 counts nothing exactly when no line is a header or a pair. */
  lemma {:induction false} NoEntryLinesIff(lines: seq<string>)
    ensures CountEntryLines(lines) == 0 <==>
              forall i :: 0 <= i < |lines| ==> ParseHeader(lines[i]).None? && ParseKeyValue(lines[i]).None?
  {
    if lines != [] {
      NoEntryLinesIff(lines[1..]);
      assert forall i :: 1 <= i < |lines| ==> lines[i] == lines[1..][i - 1];
    }
  }

  /**
    Pass 2's work at the cursor `rest[0]` under the current prefix: the entry
    it appends, if any, and the prefix in force afterwards.
   */
  function Step(rest: seq<string>, prefix: string): (r: (Option<Entry>, string))
    requires |rest| > 0
    ensures r.1 == if r.0.Some? && r.0.value.Marker? then r.0.value.prefix else prefix
  {
    match ParseHeader(rest[0])
    case Some(name) => (Some(Marker(name)), name)
    case None =>
      match KeyValueFrom(rest)
      case Some(kv) => (Some(Value(TotalKey(prefix, kv.0), kv.1)), prefix)
      case None => (None, prefix)
  }

  /**
    Only a header line makes a marker, and it carries the name the header
    captures; any other line makes a value or nothing.
   */
  lemma StepMarkers(rest: seq<string>, prefix: string)
    requires |rest| > 0
    ensures ParseHeader(rest[0]).Some? ==>
              Step(rest, prefix) == (Some(Marker(ParseHeader(rest[0]).value)), ParseHeader(rest[0]).value)
    ensures ParseHeader(rest[0]).None? ==>
              Step(rest, prefix).1 == prefix && (Step(rest, prefix).0.Some? ==> Step(rest, prefix).0.value.Value?)
  {
  }

  function Emitted(e: Option<Entry>): seq<Entry> {
    if e.Some? then [e.value] else []
  }

  /**
    Pass 2 run over all the cursors, starting with `prefix` in force.  It
    appends exactly one entry per cursor that pass 1 counts.
   */
  function Scan(lines: seq<string>, prefix: string): (es: seq<Entry>)
    ensures |es| <= |lines|
  {
    if lines == [] then []
    else
      var s := Step(lines, prefix);
      Emitted(s.0) + Scan(lines[1..], s.1)
  }

  /** Pass 2 appends an entry at a cursor exactly when pass 1 counts it. */
  lemma StepMatches(rest: seq<string>, prefix: string)
    requires |rest| > 0
    ensures Step(rest, prefix).0.Some? <==> Matches(rest)
  {
  }

  /** The passes agree: pass 2 appends exactly as many entries as pass 1 counts. */
  lemma {:induction false} ScanCount(lines: seq<string>, prefix: string)
    ensures |Scan(lines, prefix)| == CountEntryLines(lines)
  {
    if lines != [] {
      StepMatches(lines, prefix);
      ScanCount(lines[1..], Step(lines, prefix).1);
    }
  }

  /** `confparse_parse_string`: the table built from the text before its NUL, at the root prefix. */
  function Parse(buf: string): Config {
    Config(Scan(Lines(CStringContent(buf)), ""))
  }

  /**
    `cp_num_lines_in_config`: pass 1, counting the cursors at which either
    test holds.  It is the size the table is allocated with.
   */
  method NumLinesInConfig(lines: seq<string>) returns (size: nat)
    ensures size == CountEntryLines(lines)
    ensures size == |Scan(lines, "")|
  {
    size := 0;
    var i := 0;
    while i < |lines|
      invariant 0 <= i <= |lines|
      invariant size + CountEntryLines(lines[i..]) == CountEntryLines(lines)
    {
      CountAt(lines, i);
      if ParseHeader(lines[i]).Some? || NextKeyValue(lines[i..]).Some? {
        size := size + 1;
      }
      i := i + 1;
    }
    ScanCount(lines, "");
  }

  /**
    Pass 2 of `confparse_parse_string`: fill a table of `size` slots while
    there is room and text left.  Because the passes agree, the table is
    filled exactly, slot by slot in line order, and the loop stops for lack of
    room only when no later cursor would add an entry.
   */
  method FillTable(lines: seq<string>, size: nat) returns (table: seq<Entry>)
    requires size == CountEntryLines(lines)
    ensures |table| == size
    ensures table == Scan(lines, "")
  {
    table := [];
    var prefix := "";
    var i := 0;
    while |table| < size && i < |lines|
      invariant 0 <= i <= |lines|
      invariant table + Scan(lines[i..], prefix) == Scan(lines, "")
      decreases |lines| - i
    {
      var s := Step(lines[i..], prefix);
      ScanAt(lines, i, prefix);
      table := table + Emitted(s.0);
      prefix := s.1;
      i := i + 1;
    }
    ScanCount(lines, "");
    var tail := Scan(lines[i..], prefix);
    assert |table| + |tail| == size;
    assert i == |lines| ==> lines[i..] == [];
    assert tail == [];
  }

  /** `confparse_parse_string`: the text before the NUL, cut into lines, counted, then filled. */
  method ParseString(buf: string) returns (cfg: Config)
    ensures |cfg.entries| == CountEntryLines(Lines(CStringContent(buf)))
    ensures cfg == Parse(buf)
  {
    var lines := Lines(CStringContent(buf));
    var size := NumLinesInConfig(lines);
    var table := FillTable(lines, size);
    cfg := Config(table);
    ScanCount(lines, "");
  }

  /** Pass 1's count from cursor `i` splits into the test there and the count after it. */
  lemma CountAt(lines: seq<string>, i: nat)
    requires i < |lines|
    ensures CountEntryLines(lines[i..]) == (if Matches(lines[i..]) then 1 else 0) + CountEntryLines(lines[i + 1..])
    ensures Matches(lines[i..]) <==> ParseHeader(lines[i]).Some? || NextKeyValue(lines[i..]).Some?
  {
    assert lines[i..][1..] == lines[i + 1..];
  }

  /** Pass 2's table from cursor `i` splits into the entry made there and the table after it. */
  lemma ScanAt(lines: seq<string>, i: nat, prefix: string)
    requires i < |lines|
    ensures var s := Step(lines[i..], prefix);
      Scan(lines[i..], prefix) == Emitted(s.0) + Scan(lines[i + 1..], s.1)
  {
    assert lines[i..][1..] == lines[i + 1..];
  }

  /** The prefix in force after `es`: the most recent marker's, or `p` when there is none. */
  function PrefixAfter(es: seq<Entry>, p: string): string {
    if es == [] then p
    else if es[|es| - 1].Marker? then es[|es| - 1].prefix
    else PrefixAfter(es[..|es| - 1], p)
  }

  predicate ValidName(n: string) {
    |n| > 0 && All(n, IsNameChar)
  }

  predicate ValidKey(k: string) {
    |k| > 0 && All(k, IsKeyChar)
  }

  predicate ValidData(d: string) {
    All(d, IsValueChar) && '\0' !in d
  }

  /** `key` is `p`, then a dot, then a valid short key. */
  predicate QualifiedUnder(key: string, p: string) {
    |key| > |p| && key[..|p| + 1] == p + "." && ValidKey(key[|p| + 1..])
  }

  /** The prefix in force after entry `e`, when `p` was in force before it. */
  function NextPrefix(e: Entry, p: string): string {
    if e.Marker? then e.prefix else p
  }

  /**
    Entry `e` is well formed where prefix `p` is in force: a marker has a valid
    name; a value's key is `p`, a dot and a valid key, and its data is valid.
   */
  predicate EntryUnder(e: Entry, p: string) {
    match e
    case Marker(n) => ValidName(n)
    case Value(k, d) => QualifiedUnder(k, p) && ValidData(d)
  }

  /**
    The shape of every table the builder makes, starting from prefix `p`: each
    entry is well formed under the prefix in force where it stands, which a
    marker replaces by its own name.
   */
  predicate WellScoped(es: seq<Entry>, p: string) {
    es == [] || (EntryUnder(es[0], p) && WellScoped(es[1..], NextPrefix(es[0], p)))
  }

  /**
    Well scoped means: every entry is well formed under the prefix of the
    most recent marker before it (or `p` when there is none).
   */
  lemma {:induction false} WellScopedIff(es: seq<Entry>, p: string)
    ensures WellScoped(es, p) <==> forall i :: 0 <= i < |es| ==> EntryUnder(es[i], PrefixAfter(es[..i], p))
  {
    if es != [] {
      var q := NextPrefix(es[0], p);
      var rest := es[1..];
      WellScopedIff(rest, q);
      forall i | 0 < i < |es|
        ensures PrefixAfter(es[..i], p) == PrefixAfter(rest[..i - 1], q)
        ensures es[i] == rest[i - 1]
      {
        assert es[..i] == [es[0]] + rest[..i - 1];
        PrefixAfterCons(es[0], rest[..i - 1], p);
      }
      assert es[..0] == [];
      if forall i :: 0 <= i < |es| ==> EntryUnder(es[i], PrefixAfter(es[..i], p)) {
        forall j | 0 <= j < |rest|
          ensures EntryUnder(rest[j], PrefixAfter(rest[..j], q))
        {
          assert EntryUnder(es[j + 1], PrefixAfter(es[..j + 1], p));
        }
      }
    }
  }

  lemma {:induction false} PrefixAfterCons(e: Entry, es: seq<Entry>, p: string)
    ensures PrefixAfter([e] + es, p) == PrefixAfter(es, if e.Marker? then e.prefix else p)
    decreases |es|
  {
    if es != [] {
      assert ([e] + es)[..|es|] == [e] + es[..|es| - 1];
      PrefixAfterCons(e, es[..|es| - 1], p);
    }
  }

  /** The captured value is a piece of its line, so a line without NUL gives a value without NUL. */
  lemma ValueFromLine(line: string)
    requires ParseKeyValue(line).Some?
    requires '\0' !in line
    ensures '\0' !in ParseKeyValue(line).value.1
  {
    var a := Span(line, 0, IsBlank);
    var b := Span(line, a, IsKeyChar);
    var c := Span(line, b, IsBlank);
    var d := Span(line, c + 1, IsBlank);
    var e := if d < |line| && line[d] == '"' then d + 1 else d;
    var f := Span(line, e, IsValueChar);
    assert ParseKeyValue(line).value.1 == line[e..f];
    SliceNoNul(line, e, f);
  }

  lemma SliceNoNul(s: string, i: nat, j: nat)
    requires i <= j <= |s| && '\0' !in s
    ensures '\0' !in s[i..j]
  {
  }

  /** The entry made at the first cursor is well formed under the prefix in force there. */
  lemma StepWellFormed(lines: seq<string>, p: string)
    requires lines != []
    requires forall i :: 0 <= i < |lines| ==> '\0' !in lines[i]
    requires Step(lines, p).0.Some?
    ensures EntryUnder(Step(lines, p).0.value, p)
    ensures Step(lines, p).1 == NextPrefix(Step(lines, p).0.value, p)
  {
    var e := Step(lines, p).0.value;
    if e.Value? {
      var j := NextKeyValue(lines).value;
      var kv := ParseKeyValue(lines[j]).value;
      assert e == Value(TotalKey(p, kv.0), kv.1);
      ValueFromLine(lines[j]);
      assert e.key[..|p| + 1] == p + ".";
      assert e.key[|p| + 1..] == kv.0;
    }
  }

  /** Putting a well-formed entry in front of a table well scoped from the prefix it leaves. */
  lemma ConsWellScoped(e: Entry, rest: seq<Entry>, p: string)
    requires EntryUnder(e, p) && WellScoped(rest, NextPrefix(e, p))
    ensures WellScoped([e] + rest, p)
  {
    assert ([e] + rest)[1..] == rest;
  }

  /**
    A header replaces the prefix and never extends it: every table the
    builder makes is well scoped, each value key being the most recent header
    name (or the initial prefix), a dot, and a valid key.
   */
  lemma {:induction false} ScanWellScoped(lines: seq<string>, p: string)
    requires forall i :: 0 <= i < |lines| ==> '\0' !in lines[i]
    ensures WellScoped(Scan(lines, p), p)
  {
    if lines != [] {
      var s := Step(lines, p);
      var rest := Scan(lines[1..], s.1);
      ScanWellScoped(lines[1..], s.1);
      assert Scan(lines, p) == Emitted(s.0) + rest;
      if s.0.Some? {
        StepWellFormed(lines, p);
        ConsWellScoped(s.0.value, rest, p);
      } else {
        assert Scan(lines, p) == rest;
      }
    }
  }

  /** Every configuration `Parse` returns is well scoped from the root prefix `""`. */
  lemma ParseWellScoped(buf: string)
    ensures WellScoped(Parse(buf).entries, "")
  {
    var lines := Lines(CStringContent(buf));
    LinesHaveNoNul(CStringContent(buf));
    ScanWellScoped(lines, "");
  }

  lemma {:induction false} LinesHaveNoNul(text: string)
    requires '\0' !in text
    ensures forall i :: 0 <= i < |Lines(text)| ==> '\0' !in Lines(text)[i]
    decreases |text|
  {
    if text != [] {
      var n := Span(text, 0, NotNewline);
      if n < |text| {
        LinesHaveNoNul(text[n + 1..]);
        assert forall c :: c in text[..n] ==> c in text;
        assert forall c :: c in text[n + 1..] ==> c in text;
        var ls := Lines(text[n + 1..]);
        assert Lines(text) == [text[..n]] + ls;
      }
    }
  }
}

=== FILE: classifier.dfy ===
/**
  The line classifier of confparse.h: recognisers equivalent to the two line
  patterns (a subsection header and a `key = value` pair) and the captures they
  extract.

  A pattern's optional parts are resolved the way a POSIX leftmost-longest
  matcher resolves them element by element: the blank run after `=` is taken
  whole before the optional quote, and the value is then the longest run of
  value characters.
 */
module Classifier {
  import opened Wrappers
  import opened Text

  /**
    The header pattern: blanks, `[`, blanks, a non-empty name, blanks, `]`, then
    anything.  No part before `]` can match a newline, so only the line at the
    cursor decides, although the pattern is run on the whole remaining text.
   */
  function ParseHeader(line: string): (r: Option<string>)
    ensures r.Some? ==> |r.value| > 0 && All(r.value, IsNameChar)
  {
    var a := Span(line, 0, IsBlank);
    if a < |line| && line[a] == '[' then
      var b := Span(line, a + 1, IsBlank);
      var c := Span(line, b, IsNameChar);
      var d := Span(line, c, IsBlank);
      if b < c && d < |line| && line[d] == ']' then Some(line[b..c]) else None
    else None
  }

  /** The positions at which `line` splits as a header (independent of `ParseHeader`). */
  ghost predicate HeaderAt(line: string, i: nat, j: nat, k: nat, l: nat) {
    && i < j < k <= l < |line|
    && Run(line, 0, i, IsBlank)
    && line[i] == '['
    && Run(line, i + 1, j, IsBlank)
    && Run(line, j, k, IsNameChar)
    && Run(line, k, l, IsBlank)
    && line[l] == ']'
  }

  /** `line` is a header line whose captured name is `name`. */
  ghost predicate IsHeaderLine(line: string, name: string) {
    exists i: nat, j: nat, k: nat, l: nat :: HeaderAt(line, i, j, k, l) && name == line[j..k]
  }

  /** The recogniser accepts exactly the header lines, and captures their name. */
  lemma HeaderIff(line: string, name: string)
    ensures ParseHeader(line) == Some(name) <==> IsHeaderLine(line, name)
  {
    if ParseHeader(line) == Some(name) {
      HeaderSound(line);
    }
    if IsHeaderLine(line, name) {
      var i: nat, j: nat, k: nat, l: nat :| HeaderAt(line, i, j, k, l) && name == line[j..k];
      HeaderComplete(line, i, j, k, l);
    }
  }

  lemma HeaderSound(line: string)
    requires ParseHeader(line).Some?
    ensures IsHeaderLine(line, ParseHeader(line).value)
  {
    var a := Span(line, 0, IsBlank);
    var b := Span(line, a + 1, IsBlank);
    var c := Span(line, b, IsNameChar);
    var d := Span(line, c, IsBlank);
    assert HeaderAt(line, a, b, c, d);
  }

  lemma HeaderComplete(line: string, i: nat, j: nat, k: nat, l: nat)
    requires HeaderAt(line, i, j, k, l)
    ensures ParseHeader(line) == Some(line[j..k])
  {
    assert !IsBlank(line[i]);
    SpanExact(line, 0, i, IsBlank);
    assert !IsBlank(line[j]);
    SpanExact(line, i + 1, j, IsBlank);
    assert !IsNameChar(line[k]);
    SpanExact(line, j, k, IsNameChar);
    SpanExact(line, k, l, IsBlank);
  }

  /**
    The key/value pattern on one line: blanks, a non-empty key, blanks, `=`;
    then blanks, at most one `"`, and the value, the longest run of characters
    that are neither `"` nor a newline.  An unquoted value therefore keeps its
    trailing blanks and any comment text after it.
   */
  function ParseKeyValue(line: string): (r: Option<(string, string)>)
    ensures r.Some? ==> |r.value.0| > 0 && All(r.value.0, IsKeyChar)
    ensures r.Some? ==> All(r.value.1, IsValueChar)
  {
    var a := Span(line, 0, IsBlank);
    var b := Span(line, a, IsKeyChar);
    var c := Span(line, b, IsBlank);
    if a < b && c < |line| && line[c] == '=' then
      var d := Span(line, c + 1, IsBlank);
      var e := if d < |line| && line[d] == '"' then d + 1 else d;
      var f := Span(line, e, IsValueChar);
      Some((line[a..b], line[e..f]))
    else None
  }

  /**
    The positions at which `line` splits as a key/value pair: the key is
    `line[i..j]`, `=` is at `k`, the value is `line[v..w]`.  The blank run
    before the value is maximal unless a quote ends it, and the value run is
    maximal.
   */
  ghost predicate KeyValueAt(line: string, i: nat, j: nat, k: nat, v: nat, w: nat) {
    && i < j <= k < v <= w <= |line|
    && Run(line, 0, i, IsBlank)
    && Run(line, i, j, IsKeyChar)
    && Run(line, j, k, IsBlank)
    && line[k] == '='
    && (|| (Run(line, k + 1, v, IsBlank) && (v == |line| || (!IsBlank(line[v]) && line[v] != '"')))
        || (Run(line, k + 1, v - 1, IsBlank) && line[v - 1] == '"'))
    && Run(line, v, w, IsValueChar)
    && (w == |line| || !IsValueChar(line[w]))
  }

  /** `line` is a key/value line capturing `key` and `value`. */
  ghost predicate IsKeyValueLine(line: string, key: string, value: string) {
    exists i: nat, j: nat, k: nat, v: nat, w: nat :: KeyValueAt(line, i, j, k, v, w) && key == line[i..j] && value == line[v..w]
  }

  /** The recogniser accepts exactly the key/value lines, with their captures. */
  lemma KeyValueIff(line: string, key: string, value: string)
    ensures ParseKeyValue(line) == Some((key, value)) <==> IsKeyValueLine(line, key, value)
  {
    if ParseKeyValue(line) == Some((key, value)) {
      KeyValueSound(line);
    }
    if IsKeyValueLine(line, key, value) {
      var i: nat, j: nat, k: nat, v: nat, w: nat :| KeyValueAt(line, i, j, k, v, w) && key == line[i..j] && value == line[v..w];
      KeyValueComplete(line, i, j, k, v, w);
    }
  }

  lemma KeyValueSound(line: string)
    requires ParseKeyValue(line).Some?
    ensures IsKeyValueLine(line, ParseKeyValue(line).value.0, ParseKeyValue(line).value.1)
  {
    var a := Span(line, 0, IsBlank);
    var b := Span(line, a, IsKeyChar);
    var c := Span(line, b, IsBlank);
    var d := Span(line, c + 1, IsBlank);
    var e := if d < |line| && line[d] == '"' then d + 1 else d;
    var f := Span(line, e, IsValueChar);
    assert KeyValueAt(line, a, b, c, e, f);
  }

  lemma KeyValueComplete(line: string, i: nat, j: nat, k: nat, v: nat, w: nat)
    requires KeyValueAt(line, i, j, k, v, w)
    ensures ParseKeyValue(line) == Some((line[i..j], line[v..w]))
  {
    KeyPartComplete(line, i, j, k);
    ValuePartComplete(line, k, v, w);
  }

  /** The blank and key runs before `=` are found where the shape puts them. */
  lemma KeyPartComplete(line: string, i: nat, j: nat, k: nat)
    requires i < j <= k < |line|
    requires Run(line, 0, i, IsBlank) && Run(line, i, j, IsKeyChar) && Run(line, j, k, IsBlank)
    requires line[k] == '='
    ensures Span(line, 0, IsBlank) == i && Span(line, i, IsKeyChar) == j && Span(line, j, IsBlank) == k
  {
    assert !IsBlank(line[i]);
    SpanExact(line, 0, i, IsBlank);
    assert !IsKeyChar(line[j]);
    SpanExact(line, i, j, IsKeyChar);
    SpanExact(line, j, k, IsBlank);
  }

  /** The blank run, optional quote and value run after `=` are found where the shape puts them. */
  lemma ValuePartComplete(line: string, k: nat, v: nat, w: nat)
    requires k < v <= w <= |line|
    requires || (Run(line, k + 1, v, IsBlank) && (v == |line| || (!IsBlank(line[v]) && line[v] != '"')))
             || (Run(line, k + 1, v - 1, IsBlank) && line[v - 1] == '"')
    requires Run(line, v, w, IsValueChar) && (w == |line| || !IsValueChar(line[w]))
    ensures var d := Span(line, k + 1, IsBlank);
      && (if d < |line| && line[d] == '"' then d + 1 else d) == v
      && Span(line, v, IsValueChar) == w
  {
    if Run(line, k + 1, v, IsBlank) && (v == |line| || (!IsBlank(line[v]) && line[v] != '"')) {
      SpanExact(line, k + 1, v, IsBlank);
    } else {
      SpanExact(line, k + 1, v - 1, IsBlank);
    }
    SpanExact(line, v, w, IsValueChar);
  }

  /** A line is never both a header and a key/value pair. */
  lemma HeaderExcludesKeyValue(line: string)
    requires ParseHeader(line).Some?
    ensures ParseKeyValue(line).None?
  {
  }

  /**
    The key/value test at a cursor.  The pattern is compiled with REG_NEWLINE
    and run on the whole remaining text, so `^` also matches after every later
    newline: the test holds when ANY line from the cursor onward is a key/value
    line, and the captures come from the first such line.  The result is that
    line's index in `lines`.
   */
  function NextKeyValue(lines: seq<string>): (r: Option<nat>)
    ensures r.Some? ==> r.value < |lines| && ParseKeyValue(lines[r.value]).Some?
    ensures r.Some? ==> forall j :: 0 <= j < r.value ==> ParseKeyValue(lines[j]).None?
    ensures r.None? ==> forall j :: 0 <= j < |lines| ==> ParseKeyValue(lines[j]).None?
  {
    FirstWhere(lines, HasKeyValue)
  }

  predicate HasKeyValue(line: string) {
    ParseKeyValue(line).Some?
  }

  /**
    The key and value the extractors return at a cursor, if the test holds
    there: a non-empty run of key characters and a run of value characters.
   */
  function KeyValueFrom(lines: seq<string>): (r: Option<(string, string)>)
    ensures r.Some? ==> |r.value.0| > 0 && All(r.value.0, IsKeyChar)
    ensures r.Some? ==> All(r.value.1, IsValueChar)
  {
    match NextKeyValue(lines)
    case None => None
    case Some(j) => ParseKeyValue(lines[j])
  }

  /**
    The extractors find nothing exactly when no line from the cursor on is a
    key/value line, and otherwise return the captures of a key/value line with
    none before it.
   */
  lemma KeyValueFromFirst(lines: seq<string>)
    ensures KeyValueFrom(lines).None? <==> forall j :: 0 <= j < |lines| ==> ParseKeyValue(lines[j]).None?
    ensures KeyValueFrom(lines).Some? ==>
              exists j :: 0 <= j < |lines| && KeyValueFrom(lines) == ParseKeyValue(lines[j])
                          && forall m :: 0 <= m < j ==> ParseKeyValue(lines[m]).None?
  {
    var r := NextKeyValue(lines);
    if r.Some? {
      assert KeyValueFrom(lines) == ParseKeyValue(lines[r.value]);
    }
  }
}

=== FILE: duplicates.dfy ===
/**
  What the look-ahead of the key/value test does to the table.

  `Direct` is the table one would expect: one entry per header or key/value
  line, each value carrying its own line's pair.  The builder's table is that
  table exactly when no blank, comment or garbage line comes before a
  key/value line; each such line adds one more value, a copy of the next
  key/value line's pair qualified with the prefix in force at the stray line.
 */
module Duplicates {
  import opened Wrappers
  import opened Classifier
  import opened Entries
  import opened Builder

  /** A line neither pattern accepts: blank, comment or garbage. */
  predicate IsOther(line: string) {
    ParseHeader(line).None? && ParseKeyValue(line).None?
  }

  /** One entry per header or key/value line, each from that line alone. */
  function Direct(lines: seq<string>, prefix: string): seq<Entry> {
    if lines == [] then []
    else match ParseHeader(lines[0])
      case Some(n) => [Marker(n)] + Direct(lines[1..], n)
      case None =>
        match ParseKeyValue(lines[0])
        case Some(kv) => [Value(TotalKey(prefix, kv.0), kv.1)] + Direct(lines[1..], prefix)
        case None => Direct(lines[1..], prefix)
  }

  /** The number of other lines that some key/value line follows. */
  function Strays(lines: seq<string>): nat {
    if lines == [] then 0
    else (if IsOther(lines[0]) && NextKeyValue(lines).Some? then 1 else 0) + Strays(lines[1..])
  }

  /** Some blank, comment or garbage line comes before a key/value line. */
  ghost predicate StrayBeforeKeyValue(lines: seq<string>) {
    exists i, j :: 0 <= i < j < |lines| && IsOther(lines[i]) && ParseKeyValue(lines[j]).Some?
  }

  /** The table holds one extra entry per stray line. */
  lemma {:induction false} CountWithStrays(lines: seq<string>, p: string)
    ensures |Scan(lines, p)| == |Direct(lines, p)| + Strays(lines)
  {
    if lines != [] {
      var s := Step(lines, p);
      CountWithStrays(lines[1..], s.1);
      if ParseHeader(lines[0]).None? && ParseKeyValue(lines[0]).Some? {
        assert NextKeyValue(lines) == Some(0);
      }
      match ParseHeader(lines[0]) {
        case Some(n) =>
          assert Direct(lines, p) == [Marker(n)] + Direct(lines[1..], n);
        case None =>
      }
    }
  }

  /** Some stray line is counted exactly when a blank, comment or garbage line precedes a key/value line. */
  lemma {:induction false} StraysCountStrayLines(lines: seq<string>)
    ensures Strays(lines) > 0 <==> StrayBeforeKeyValue(lines)
  {
    if Strays(lines) > 0 {
      StraysSound(lines);
    }
    if StrayBeforeKeyValue(lines) {
      var i, j :| 0 <= i < j < |lines| && IsOther(lines[i]) && ParseKeyValue(lines[j]).Some?;
      StraysComplete(lines, i, j);
    }
  }

  lemma {:induction false} StraysSound(lines: seq<string>)
    requires Strays(lines) > 0
    ensures StrayBeforeKeyValue(lines)
  {
    if IsOther(lines[0]) && NextKeyValue(lines).Some? {
      var j := NextKeyValue(lines).value;
      assert 0 < j && ParseKeyValue(lines[j]).Some?;
    } else {
      var tail := lines[1..];
      StraysSound(tail);
      var i, j :| 0 <= i < j < |tail| && IsOther(tail[i]) && ParseKeyValue(tail[j]).Some?;
      assert IsOther(lines[i + 1]) && ParseKeyValue(lines[j + 1]).Some?;
    }
  }

  lemma {:induction false} StraysComplete(lines: seq<string>, i: nat, j: nat)
    requires i < j < |lines| && IsOther(lines[i]) && ParseKeyValue(lines[j]).Some?
    ensures Strays(lines) > 0
  {
    if i == 0 {
      assert NextKeyValue(lines).Some?;
    } else {
      var tail := lines[1..];
      assert tail[i - 1] == lines[i] && tail[j - 1] == lines[j];
      StraysComplete(tail, i - 1, j - 1);
    }
  }

  lemma {:induction false} NoStraysScanIsDirect(lines: seq<string>, p: string)
    requires Strays(lines) == 0
    ensures Scan(lines, p) == Direct(lines, p)
  {
    if lines != [] {
      var s := Step(lines, p);
      NoStraysScanIsDirect(lines[1..], s.1);
      match ParseHeader(lines[0]) {
        case Some(n) =>
        case None =>
          if ParseKeyValue(lines[0]).Some? {
            assert NextKeyValue(lines) == Some(0);
          } else {
            assert NextKeyValue(lines).None?;
          }
      }
    }
  }

  /**
    The table has one entry per header or key/value line, each from its own
    line, if and only if no blank, comment or garbage line precedes a
    key/value line.
   */
  lemma {:induction false} ScanIsDirectIff(lines: seq<string>, p: string)
    ensures Scan(lines, p) == Direct(lines, p) <==> !StrayBeforeKeyValue(lines)
  {
    StraysCountStrayLines(lines);
    CountWithStrays(lines, p);
    if Strays(lines) == 0 {
      NoStraysScanIsDirect(lines, p);
    }
  }

  /** The entries appended at the first `n` cursors, starting with prefix `p`. */
  function ScanFirst(lines: seq<string>, n: nat, p: string): seq<Entry>
    requires n <= |lines|
  {
    if n == 0 then []
    else
      var s := Step(lines, p);
      Emitted(s.0) + ScanFirst(lines[1..], n - 1, s.1)
  }

  /** The prefix in force at cursor `n`. */
  function PrefixAt(lines: seq<string>, n: nat, p: string): string
    requires n <= |lines|
  {
    if n == 0 then p else PrefixAt(lines[1..], n - 1, Step(lines, p).1)
  }

  /** The table splits at any cursor into what came before and what the rest adds. */
  lemma {:induction false} ScanSplit(lines: seq<string>, n: nat, p: string)
    requires n <= |lines|
    ensures Scan(lines, p) == ScanFirst(lines, n, p) + Scan(lines[n..], PrefixAt(lines, n, p))
  {
    if n > 0 {
      var s := Step(lines, p);
      ScanSplit(lines[1..], n - 1, s.1);
      assert lines[1..][n - 1..] == lines[n..];
    }
  }

  /**
    The name of the last header among the first `n` lines, or `p` when none of
    them is a header: the prefix the text puts in force at cursor `n`.
   */
  function LastHeaderName(lines: seq<string>, n: nat, p: string): string
    requires n <= |lines|
  {
    if n == 0 then p
    else match ParseHeader(lines[n - 1])
      case Some(name) => name
      case None => LastHeaderName(lines, n - 1, p)
  }

  /** Dropping the first line and starting from the prefix it leaves. */
  lemma {:induction false} LastHeaderShift(lines: seq<string>, n: nat, p: string)
    requires 1 <= n <= |lines|
    ensures LastHeaderName(lines, n, p) == LastHeaderName(lines[1..], n - 1, LastHeaderName(lines, 1, p))
  {
    if n > 1 {
      assert lines[1..][n - 2] == lines[n - 1];
      LastHeaderShift(lines, n - 1, p);
    }
  }

  /** The prefix the builder carries is the name of the most recent header. */
  lemma {:induction false} PrefixAtIsLastHeader(lines: seq<string>, n: nat, p: string)
    requires n <= |lines|
    ensures PrefixAt(lines, n, p) == LastHeaderName(lines, n, p)
  {
    if n > 0 {
      var q := Step(lines, p).1;
      assert q == LastHeaderName(lines, 1, p);
      PrefixAtIsLastHeader(lines[1..], n - 1, q);
      LastHeaderShift(lines, n, p);
    }
  }

  /** A header line adds a marker with its own name, which becomes the prefix. */
  lemma HeaderLineMakesItsMarker(lines: seq<string>, j: nat, p: string)
    requires j < |lines| && ParseHeader(lines[j]).Some?
    ensures Scan(lines, p) ==
              ScanFirst(lines, j, p)
              + [Marker(ParseHeader(lines[j]).value)]
              + Scan(lines[j + 1..], ParseHeader(lines[j]).value)
  {
    ScanSplit(lines, j, p);
    var rest := lines[j..];
    var q := PrefixAt(lines, j, p);
    var n := ParseHeader(lines[j]).value;
    assert rest[0] == lines[j];
    assert rest[1..] == lines[j + 1..];
    assert Step(rest, q) == (Some(Marker(n)), n);
    assert Scan(rest, q) == [Marker(n)] + Scan(lines[j + 1..], n);
  }

  /**
    A key/value line adds the value it captures itself, its key qualified with
    the prefix in force at that line.
   */
  lemma PairLineMakesItsPair(lines: seq<string>, j: nat, p: string)
    requires j < |lines| && ParseHeader(lines[j]).None? && ParseKeyValue(lines[j]).Some?
    ensures Scan(lines, p) ==
              ScanFirst(lines, j, p)
              + [Value(TotalKey(PrefixAt(lines, j, p), ParseKeyValue(lines[j]).value.0), ParseKeyValue(lines[j]).value.1)]
              + Scan(lines[j + 1..], PrefixAt(lines, j, p))
  {
    ScanSplit(lines, j, p);
    var rest := lines[j..];
    var q := PrefixAt(lines, j, p);
    var kv := ParseKeyValue(lines[j]).value;
    assert rest[0] == lines[j];
    assert rest[1..] == lines[j + 1..];
    assert NextKeyValue(rest) == Some(0);
    assert Step(rest, q) == (Some(Value(TotalKey(q, kv.0), kv.1)), q);
    assert Scan(rest, q) == [Value(TotalKey(q, kv.0), kv.1)] + Scan(lines[j + 1..], q);
  }

  /** At a stray line, the scan adds the pair of the next key/value line. */
  lemma StrayLineStep(rest: seq<string>, q: string)
    requires |rest| > 0 && IsOther(rest[0]) && NextKeyValue(rest).Some?
    ensures var kv := ParseKeyValue(rest[NextKeyValue(rest).value]).value;
      Scan(rest, q) == [Value(TotalKey(q, kv.0), kv.1)] + Scan(rest[1..], q)
  {
    var kv := ParseKeyValue(rest[NextKeyValue(rest).value]).value;
    assert KeyValueFrom(rest) == Some(kv);
    assert Step(rest, q) == (Some(Value(TotalKey(q, kv.0), kv.1)), q);
  }

  /**
    A stray line adds a value carrying the pair of the next key/value line,
    qualified with the prefix in force at the stray line (which differs from
    the one at the key/value line when a header lies between them).
   */
  lemma StrayCopiesNextPair(lines: seq<string>, i: nat, p: string)
    requires i < |lines| && IsOther(lines[i]) && NextKeyValue(lines[i..]).Some?
    ensures var j := i + NextKeyValue(lines[i..]).value;
      && i < j < |lines|
      && ParseKeyValue(lines[j]).Some?
      && (forall m :: i <= m < j ==> ParseKeyValue(lines[m]).None?)
      && Scan(lines, p) ==
           ScanFirst(lines, i, p)
           + [Value(TotalKey(PrefixAt(lines, i, p), ParseKeyValue(lines[j]).value.0), ParseKeyValue(lines[j]).value.1)]
           + Scan(lines[i + 1..], PrefixAt(lines, i, p))
  {
    var rest := lines[i..];
    var d := NextKeyValue(rest).value;
    var j := i + d;
    assert rest[d] == lines[j];
    assert rest[0] == lines[i];
    assert d != 0;
    forall m | i <= m < j
      ensures ParseKeyValue(lines[m]).None?
    {
      assert rest[m - i] == lines[m];
    }
    ScanSplit(lines, i, p);
    assert rest[1..] == lines[i + 1..];
    StrayLineStep(rest, PrefixAt(lines, i, p));
  }
}

=== FILE: entries.dfy ===
/**
  The entry table of confparse.h and the two string helpers on qualified names:
  `cp_total_key` (qualify a short key with a prefix) and `cp_is_child_namespace`
  (compare two prefixes).
 */
module Entries {
  import opened Text

  /**
    One slot of the flat table, in file order.  The C code stores both kinds
    behind one pointer type and compares a marker's prefix in the slot where a
    value keeps its key; here the two kinds are the two constructors and
    `Name` is that shared slot.
   */
  datatype Entry = Marker(prefix: string) | Value(key: string, data: string) {

    /** The string lookups compare against: a marker's prefix or a value's key. */
    function Name(): string {
      if Marker? then prefix else key
    }
  }

  /** A parsed configuration: its entries in file order. */
  datatype Config = Config(entries: seq<Entry>)

  /**
    What a lookup is relative to: the whole configuration, or a subsection
    (a marker's prefix, viewing the same table).
   */
  datatype Scope = Root | Sub(prefix: string)

  /** A short key qualified by a prefix; the empty prefix still gets its dot. */
  function TotalKey(prefix: string, key: string): (r: string)
    ensures |r| == |prefix| + |key| + 1
    ensures r[..|prefix|] == prefix && r[|prefix|] == '.' && r[|prefix| + 1..] == key
  {
    prefix + "." + key
  }

  /** The index of the last dot in `s`, if any. */
  function LastDot(s: string): (r: int)
    ensures -1 <= r < |s|
    ensures r >= 0 ==> s[r] == '.'
    ensures forall k :: r < k < |s| ==> s[k] != '.'
  {
    if s == [] then -1
    else if s[|s| - 1] == '.' then |s| - 1
    else LastDot(s[..|s| - 1])
  }

  /** Splits a qualified key at its last dot into the prefix and the short key. */
  function SplitTotalKey(s: string): (r: (string, string))
    ensures '.' !in r.1
  {
    var d := LastDot(s);
    if d < 0 then ("", s) else (s[..d], s[d + 1..])
  }

  /**
    Qualifying is undone by splitting at the last dot whenever the short key
    holds no dot, which every captured key satisfies; the qualified key is
    exactly one character longer than its two parts.
   */
  lemma {:induction false} TotalKeySplit(prefix: string, key: string)
    requires '.' !in key
    ensures |TotalKey(prefix, key)| == |prefix| + |key| + 1
    ensures SplitTotalKey(TotalKey(prefix, key)) == (prefix, key)
  {
    var t := TotalKey(prefix, key);
    var d := LastDot(t);
    assert t[|prefix|] == '.';
    assert forall k :: |prefix| < k < |t| ==> t[k] == key[k - |prefix| - 1];
    assert d == |prefix|;
    assert t[..d] == prefix;
    assert t[d + 1..] == key;
  }

  /** Two qualified keys with dot-free short keys are equal only if both parts are. */
  lemma TotalKeyInjective(p1: string, k1: string, p2: string, k2: string)
    requires '.' !in k1 && '.' !in k2
    requires TotalKey(p1, k1) == TotalKey(p2, k2)
    ensures p1 == p2 && k1 == k2
  {
    TotalKeySplit(p1, k1);
    TotalKeySplit(p2, k2);
  }

  /** The character C reads at index `i`: past the end it reads the terminating NUL. */
  function CharAt(s: string, i: nat): char {
    if i < |s| then s[i] else '\0'
  }

  /**
    `strncmp(a, b, n) == 0` for indices from `i` on: the strings agree up to
    `n` characters or up to a NUL they share, whichever comes first.
   */
  function StrNEqual(a: string, b: string, n: nat, i: nat): bool
    decreases n - i
  {
    if i >= n then true
    else if CharAt(a, i) != CharAt(b, i) then false
    else if CharAt(a, i) == '\0' then true
    else StrNEqual(a, b, n, i + 1)
  }

  /** `cp_is_child_namespace`: compares the first `strlen(parent)` characters. */
  function IsChildNamespace(parent: string, child: string): (r: bool)
    ensures parent <= child ==> r
  {
    StrNEqualOfPrefix(parent, child, 0);
    StrNEqual(parent, child, |parent|, 0)
  }

  /** Strings that agree on `a`'s whole length compare equal from any index. */
  lemma {:induction false} StrNEqualOfPrefix(a: string, b: string, i: nat)
    ensures a <= b ==> StrNEqual(a, b, |a|, i)
    decreases |a| - i
  {
    if a <= b && i < |a| {
      assert CharAt(a, i) == CharAt(b, i);
      StrNEqualOfPrefix(a, b, i + 1);
    }
  }

  /**
    The child test is a plain character-level prefix test, with no regard for
    dot boundaries.  (A C string never contains NUL, so `parent` has none.)
   */
  lemma ChildNamespaceIsPrefix(parent: string, child: string)
    requires '\0' !in parent
    ensures IsChildNamespace(parent, child) <==> parent <= child
  {
    StrNEqualFrom(parent, child, 0);
  }

  lemma {:induction false} StrNEqualFrom(parent: string, child: string, i: nat)
    requires '\0' !in parent
    requires i <= |parent|
    requires i <= |child| && parent[..i] == child[..i]
    ensures StrNEqual(parent, child, |parent|, i) <==> parent <= child
    decreases |parent| - i
  {
    if i < |parent| {
      assert CharAt(parent, i) == parent[i] != '\0';
      if CharAt(parent, i) == CharAt(child, i) {
        assert i < |child|;
        assert parent[..i + 1] == parent[..i] + [parent[i]];
        assert child[..i + 1] == child[..i] + [child[i]];
        StrNEqualFrom(parent, child, i + 1);
      } else {
        assert i < |child| ==> child[i] != parent[i];
      }
    } else {
      assert parent == parent[..i];
    }
  }

  /** The empty prefix is a parent of everything, and "data" of "database". */
  lemma ChildNamespaceExamples(child: string)
    ensures IsChildNamespace("", child)
    ensures IsChildNamespace("data", "database")
    ensures !IsChildNamespace("database", "data")
  {
    ChildNamespaceIsPrefix("", child);
    ChildNamespaceIsPrefix("data", "database");
    ChildNamespaceIsPrefix("database", "data");
  }
}

=== FILE: resolver.dfy ===
/**
  The key resolver of confparse.h: `cp_find_value`, `confparse_has_key` and
  `confparse_get_namespace`.  Every lookup is a linear scan of the table in
  file order, comparing the lookup key with each entry's name, so markers and
  values are found alike.
 */
module Resolver {
  import opened Wrappers
  import opened Text
  import opened Entries

  /** The string compared with the table: verbatim at the root, qualified in a subsection. */
  function LookupKey(scope: Scope, key: string): (r: string)
    ensures scope.Root? ==> r == key
    ensures scope.Sub? ==> |r| == |scope.prefix| + |key| + 1 && r[..|scope.prefix|] == scope.prefix
                           && r[|scope.prefix|] == '.' && r[|scope.prefix| + 1..] == key
  {
    match scope
    case Root => key
    case Sub(p) => TotalKey(p, key)
  }

  /** Entry `i` is the first one named `name`. */
  predicate IsFirstMatch(es: seq<Entry>, name: string, i: int) {
    0 <= i < |es| && es[i].Name() == name && forall j :: 0 <= j < i ==> es[j].Name() != name
  }

  /** No entry is named `name`. */
  predicate Absent(es: seq<Entry>, name: string) {
    forall j :: 0 <= j < |es| ==> es[j].Name() != name
  }

  /** The index of the first entry named `name`. */
  function FirstMatch(es: seq<Entry>, name: string): (r: Option<nat>)
    ensures r.Some? ==> IsFirstMatch(es, name, r.value)
    ensures r.None? ==> Absent(es, name)
  {
    FirstWhere(es, (e: Entry) => e.Name() == name)
  }

  /** `cp_find_value`: the first entry, marker or value, whose name is the lookup key. */
  function Find(cfg: Config, scope: Scope, key: string): (r: Option<Entry>)
    ensures r.None? <==> Absent(cfg.entries, LookupKey(scope, key))
    ensures r.Some? ==> exists i :: IsFirstMatch(cfg.entries, LookupKey(scope, key), i) && cfg.entries[i] == r.value
  {
    match FirstMatch(cfg.entries, LookupKey(scope, key))
    case None => None
    case Some(i) => Some(cfg.entries[i])
  }

  /** The first match is unique. */
  lemma FirstMatchUnique(es: seq<Entry>, name: string, i: int, j: int)
    requires IsFirstMatch(es, name, i) && IsFirstMatch(es, name, j)
    ensures i == j
  {
  }

  /**
    `confparse_has_key`: scans the whole table (it does not stop at the first
    match) and reports whether any entry, marker or value, has the lookup key
    as its name; so it agrees with `Find`.
   */
  method HasKey(cfg: Config, scope: Scope, key: string) returns (found: bool)
    ensures found <==> exists i :: 0 <= i < |cfg.entries| && cfg.entries[i].Name() == LookupKey(scope, key)
    ensures found <==> Find(cfg, scope, key).Some?
  {
    var name := LookupKey(scope, key);
    found := false;
    for i := 0 to |cfg.entries|
      invariant found <==> exists j :: 0 <= j < i && cfg.entries[j].Name() == name
    {
      if cfg.entries[i].Name() == name {
        found := true;
      }
    }
  }

  /**
    `confparse_get_namespace`: a subsection view when the first match is a
    marker, none otherwise (nothing found, or a value found first).  The view's
    prefix is the lookup key, which is the marker's name.
   */
  function GetNamespace(cfg: Config, scope: Scope, key: string): (r: Option<Scope>)
    ensures r.Some? <==> exists i :: IsFirstMatch(cfg.entries, LookupKey(scope, key), i) && cfg.entries[i].Marker?
    ensures r.Some? ==> r.value == Sub(LookupKey(scope, key))
  {
    match Find(cfg, scope, key)
    case Some(Marker(p)) => Some(Sub(p))
    case _ => None
  }

  /**
    A value whose key equals a marker's name, and that no marker of that name
    precedes, hides the marker: the namespace lookup finds the value.
   */
  lemma ValueHidesLaterMarker(cfg: Config, scope: Scope, key: string, i: nat, j: nat)
    requires i < j < |cfg.entries|
    requires cfg.entries[i].Value? && cfg.entries[i].key == LookupKey(scope, key)
    requires cfg.entries[j] == Marker(LookupKey(scope, key))
    requires forall m :: 0 <= m < i ==> cfg.entries[m] != Marker(LookupKey(scope, key))
    ensures GetNamespace(cfg, scope, key).None?
    ensures Find(cfg, scope, key).Some? && Find(cfg, scope, key).value.Value?
  {
    var name := LookupKey(scope, key);
    var k := FirstMatch(cfg.entries, name).value;
    assert k <= i;
    assert cfg.entries[k] != Marker(name);
  }
}

=== FILE: scenarios.dfy ===
/**
  Whole-pipeline consequences: what a lookup sees in a table the builder made.

  Each example lemma is about one input.  It takes that input as a parameter
  fixed by `requires x == <literal>` only so that the solver does not unfold
  the literal; it states nothing about other inputs.
 */
module Scenarios {
  import opened Wrappers
  import opened Text
  import opened Entries
  import opened Builder
  import opened Resolver
  import opened Accessors
  import opened Classifier
  import opened Serializer

  /** In a well-scoped table every value key holds a dot. */
  lemma ValueKeysHoldDot(es: seq<Entry>, p: string, i: nat)
    requires WellScoped(es, p) && i < |es|
    ensures es[i].Value? ==> '.' in es[i].key
  {
    if es[i].Value? {
      var q := PrefixAfter(es[..i], p);
      var k := es[i].key;
      WellScopedIff(es, p);
      assert EntryUnder(es[i], q);
      assert k[..|q| + 1] == q + ".";
      assert k[|q|] == (q + ".")[|q|];
    }
  }

  /**
    Values at the top of the text are stored as `.key`, but a root lookup uses
    the key verbatim: a key without a dot never finds a value in a parsed
    configuration, only (possibly) a header of that name.
   */
  lemma RootLookupMissesValues(buf: string, key: string)
    requires '.' !in key
    ensures Find(Parse(buf), Root, key).None? || Find(Parse(buf), Root, key).value.Marker?
  {
    var cfg := Parse(buf);
    ParseWellScoped(buf);
    var r := Find(cfg, Root, key);
    if r.Some? {
      var i :| IsFirstMatch(cfg.entries, key, i) && cfg.entries[i] == r.value;
      ValueKeysHoldDot(cfg.entries, "", i);
    }
  }

  /** The canonical text of a header and a quoted pair under it. */
  lemma SectionText(es: seq<Entry>)
    requires es == [Marker("db"), Value("db.port", "5432")]
    ensures WellScoped(es, "")
    ensures Serialize(es, "") == "[db]\nport = \"5432\"\n"
  {
    SectionScoped(es);
    var ls := Render(es, "");
    SectionLines(es);
    TwoLinesJoin(ls);
    var t := ls[0] + "\n" + ls[1] + "\n";
    var text := "[db]\nport = \"5432\"\n";
    assert |t| == |text|;
    forall i | 0 <= i < |t|
      ensures t[i] == text[i]
    {
    }
  }

  lemma SectionScoped(es: seq<Entry>)
    requires es == [Marker("db"), Value("db.port", "5432")]
    ensures WellScoped(es, "")
  {
    assert "db.port"[..3] == "db." && "db.port"[3..] == "port";
    assert WellScoped(es[1..], "db");
  }

  lemma SectionLines(es: seq<Entry>)
    requires es == [Marker("db"), Value("db.port", "5432")]
    ensures Render(es, "") == ["[db]", "port = \"5432\""]
  {
    assert "db.port"[3..] == "port";
    assert EntryLine(es[1], "db") == "port = \"5432\"";
    assert es[1..][1..] == [];
    assert Render(es[1..], "db") == ["port = \"5432\""];
    assert EntryLine(es[0], "") == "[db]";
    assert Render(es, "") == [EntryLine(es[0], "")] + Render(es[1..], "db");
  }

  /** Two lines joined: each followed by its newline. */
  lemma TwoLinesJoin(ls: seq<string>)
    requires |ls| == 2
    ensures JoinLines(ls) == ls[0] + "\n" + ls[1] + "\n"
  {
    assert ls[1..][1..] == [];
    assert JoinLines(ls[1..]) == ls[1] + "\n";
    assert ls[0] + "\n" + (ls[1] + "\n") == ls[0] + "\n" + ls[1] + "\n";
  }

  /** The lookups in that table: the subsection view reads the value, the root does not. */
  lemma SectionLookups(cfg: Config)
    requires cfg.entries == [Marker("db"), Value("db.port", "5432")]
    ensures GetNamespace(cfg, Root, "db") == Some(Sub("db"))
    ensures GetString(cfg, Sub("db"), "port") == Some("5432")
    ensures GetString(cfg, Root, "port").None?
  {
    assert TotalKey("db", "port") == "db.port";
    assert IsFirstMatch(cfg.entries, "db.port", 1);
    assert IsFirstMatch(cfg.entries, "db", 0);
  }

  /** Parsing a header and a quoted pair, then looking the pair up. */
  lemma SectionScenario(text: string)
    requires text == "[db]\nport = \"5432\"\n"
    ensures Parse(text).entries == [Marker("db"), Value("db.port", "5432")]
    ensures GetNamespace(Parse(text), Root, "db") == Some(Sub("db"))
    ensures GetString(Parse(text), Sub("db"), "port") == Some("5432")
    ensures GetString(Parse(text), Root, "port").None?
  {
    var es := [Marker("db"), Value("db.port", "5432")];
    SectionText(es);
    RoundTrip(es, "");
    SectionLookups(Parse(text));
  }

  /** A section that appears twice, each time with the same key. */
  lemma RepeatedScoped(es: seq<Entry>)
    requires es == [Marker("a"), Value("a.x", "1"), Marker("a"), Value("a.x", "2")]
    ensures WellScoped(es, "")
  {
    assert "a.x"[..2] == "a." && "a.x"[2..] == "x";
    assert WellScoped(es[3..], "a");
    assert WellScoped(es[2..], "a");
    assert WellScoped(es[1..], "a");
  }

  lemma RepeatedLines(es: seq<Entry>)
    requires es == [Marker("a"), Value("a.x", "1"), Marker("a"), Value("a.x", "2")]
    ensures Render(es, "") == ["[a]", "x = \"1\"", "[a]", "x = \"2\""]
  {
    var h := "[a]";
    var l1 := "x = \"1\"";
    var l2 := "x = \"2\"";
    assert "a.x"[2..] == "x";
    assert EntryLine(es[1], "a") == l1;
    assert EntryLine(es[3], "a") == l2;
    assert EntryLine(es[0], "") == h && EntryLine(es[2], "a") == h;
    assert es[3..][1..] == [] && es[2..][1..] == es[3..] && es[1..][1..] == es[2..];
    assert Render(es[3..], "a") == [l2];
    assert Render(es[2..], "a") == [h, l2];
    assert Render(es[1..], "a") == [l1, h, l2];
  }

  lemma RepeatedJoin(ls: seq<string>)
    requires ls == ["[a]", "x = \"1\"", "[a]", "x = \"2\""]
    ensures JoinLines(ls) == "[a]\nx = \"1\"\n[a]\nx = \"2\"\n"
  {
    assert JoinLines(ls[3..]) == ls[3] + "\n" + JoinLines([]);
    assert ls[2..][1..] == ls[3..] && ls[1..][1..] == ls[2..];
    assert JoinLines(ls[2..]) == ls[2] + "\n" + JoinLines(ls[3..]);
    assert JoinLines(ls[1..]) == ls[1] + "\n" + JoinLines(ls[2..]);
    assert JoinLines(ls) == ls[0] + "\n" + JoinLines(ls[1..]);
  }

  /** The first of two values under the same section name is the one read. */
  lemma RepeatedLookup(cfg: Config)
    requires cfg.entries == [Marker("a"), Value("a.x", "1"), Marker("a"), Value("a.x", "2")]
    ensures Readable(cfg, Sub("a"), "x") && IntInRange(cfg, Sub("a"), "x") && GetInt(cfg, Sub("a"), "x") == 1
  {
    assert TotalKey("a", "x") == "a.x";
    assert IsFirstMatch(cfg.entries, "a.x", 1);
    ScanFormatted("", 1, "");
    assert "" + FormatInt(1) + "" == "1";
  }

  /**
    A section that appears twice: both values are kept, and a lookup in the
    section reads the first one.
   */
  lemma {:induction false} RepeatedSectionScenario(text: string)
    requires text == "[a]\nx = \"1\"\n[a]\nx = \"2\"\n"
    ensures Parse(text).entries == [Marker("a"), Value("a.x", "1"), Marker("a"), Value("a.x", "2")]
    ensures Readable(Parse(text), Sub("a"), "x") && IntInRange(Parse(text), Sub("a"), "x")
            && GetInt(Parse(text), Sub("a"), "x") == 1
  {
    var es := [Marker("a"), Value("a.x", "1"), Marker("a"), Value("a.x", "2")];
    RepeatedScoped(es);
    RepeatedLines(es);
    RepeatedJoin(Render(es, ""));
    RoundTrip(es, "");
    RepeatedLookup(Parse(text));
  }

  /** A comment line is neither a header nor a key/value line. */
  lemma CommentIsOther()
    ensures ParseHeader("# c").None? && ParseKeyValue("# c").None?
  {
    var line := "# c";
    assert !IsBlank(line[0]) && !IsKeyChar(line[0]);
    SpanExact(line, 0, 0, IsBlank);
    SpanExact(line, 0, 0, IsKeyChar);
  }

  /** The table built from a comment line followed by a pair. */
  lemma CommentThenPair(lines: seq<string>)
    requires lines == ["# c", "k = \"v\""]
    ensures Scan(lines, "") == [Value(".k", "v"), Value(".k", "v")]
  {
    CommentIsOther();
    PairText(lines[1]);
    assert ValidKey("k") && ValidData("v");
    ValueLineParses("k", "v");
    StrayThenPair(lines[0], lines[1], "");
    RootKeyOfK();
  }

  lemma RootKeyOfK()
    ensures TotalKey("", "k") == ".k"
  {
  }

  lemma PairText(line: string)
    requires line == "k = \"v\""
    ensures line == "k" + " = \"" + "v" + "\""
  {
    var t := "k" + " = \"" + "v" + "\"";
    assert |t| == |line|;
    forall i | 0 <= i < |t|
      ensures t[i] == line[i]
    {
    }
  }

  /**
    A stray line followed by a key/value line yields that line's pair twice,
    both qualified with the prefix in force.
   */
  lemma StrayThenPair(l: string, line: string, p: string)
    requires ParseHeader(l).None? && ParseKeyValue(l).None?
    requires ParseHeader(line).None? && ParseKeyValue(line).Some?
    ensures var kv := ParseKeyValue(line).value;
      var v := Value(TotalKey(p, kv.0), kv.1);
      Scan([l, line], p) == [v, v]
  {
    var tail := [line];
    assert [l, line] == [l] + tail;
    StrayBeforePair(l, tail, p);
    LonePairScan(line, p);
  }

  /** A stray line before a key/value line repeats whatever that line adds. */
  lemma StrayBeforePair(l: string, rest: seq<string>, p: string)
    requires ParseHeader(l).None? && ParseKeyValue(l).None?
    requires rest != [] && ParseHeader(rest[0]).None? && ParseKeyValue(rest[0]).Some?
    ensures Scan([l] + rest, p) == Emitted(Step(rest, p).0) + Scan(rest, p)
  {
    StrayStep(l, rest, p);
    ScanCons(l, rest, p);
  }

  /** A lone key/value line yields its one value. */
  lemma LonePairScan(line: string, p: string)
    requires ParseHeader(line).None? && ParseKeyValue(line).Some?
    ensures var kv := ParseKeyValue(line).value;
      Step([line], p) == (Some(Value(TotalKey(p, kv.0), kv.1)), p)
    ensures var kv := ParseKeyValue(line).value;
      Scan([line], p) == [Value(TotalKey(p, kv.0), kv.1)]
  {
    assert NextKeyValue([line]) == Some(0);
    ScanCons(line, [], p);
  }

  /**
    At a line neither pattern accepts, followed by a key/value line, the
    builder makes the entry the next line makes.
   */
  lemma StrayStep(l: string, rest: seq<string>, p: string)
    requires ParseHeader(l).None? && ParseKeyValue(l).None?
    requires rest != [] && ParseHeader(rest[0]).None? && ParseKeyValue(rest[0]).Some?
    ensures Step([l] + rest, p) == Step(rest, p)
  {
    var ls := [l] + rest;
    assert ls[1] == rest[0];
    assert NextKeyValue(ls) == Some(1);
    assert NextKeyValue(rest) == Some(0);
  }

  lemma CommentThenPairText(text: string, lines: seq<string>)
    requires text == "# c\nk = \"v\"\n" && lines == ["# c", "k = \"v\""]
    ensures Lines(CStringContent(text)) == lines
  {
    assert JoinLines(lines[1..]) == lines[1] + "\n" + JoinLines([]);
    assert JoinLines(lines) == lines[0] + "\n" + JoinLines(lines[1..]);
    assert JoinLines(lines) == text;
    assert '\0' !in text;
    assert CStringContent(text) == text;
    LinesOfJoin(lines);
  }

  /**
    A comment before a pair: the key/value test at the comment's cursor looks
    ahead to the pair, so the table holds the pair twice.
   */
  lemma CommentDuplicatesScenario(text: string)
    requires text == "# c\nk = \"v\"\n"
    ensures Parse(text).entries == [Value(".k", "v"), Value(".k", "v")]
  {
    var lines := ["# c", "k = \"v\""];
    CommentThenPairText(text, lines);
    CommentThenPair(lines);
  }
}

=== FILE: serializer.dfy ===
/**
  The canonical text form of a table: one line per entry, a header `[name]`
  for a marker and `key = "data"` for a value, with the short key recovered by
  dropping the prefix in force and its dot.  Parsing that text gives the same
  table back, so a configuration survives being written out and read in again.
 */
module Serializer {
  import opened Wrappers
  import opened Text
  import opened Classifier
  import opened Entries
  import opened Builder

  /** The canonical line of one entry under the prefix `p`. */
  function EntryLine(e: Entry, p: string): string {
    match e
    case Marker(n) => "[" + n + "]"
    case Value(k, d) => (if |k| > |p| then k[|p| + 1..] else k) + " = \"" + d + "\""
  }

  /** The canonical lines of a table whose first entry is under the prefix `p`. */
  function Render(es: seq<Entry>, p: string): (ls: seq<string>)
    ensures |ls| == |es|
  {
    if es == [] then []
    else [EntryLine(es[0], p)] + Render(es[1..], NextPrefix(es[0], p))
  }

  /** The canonical text: the rendered lines, each ended by a newline. */
  function Serialize(es: seq<Entry>, p: string): string {
    JoinLines(Render(es, p))
  }

  lemma HeaderLineParses(n: string)
    requires ValidName(n)
    ensures ParseHeader("[" + n + "]") == Some(n)
  {
    var line := "[" + n + "]";
    assert line[1..1 + |n|] == n;
    HeaderComplete(line, 0, 1, 1 + |n|, 1 + |n|);
  }

  lemma ValueLineParses(k: string, d: string)
    requires ValidKey(k) && All(d, IsValueChar)
    ensures ParseHeader(k + " = \"" + d + "\"").None?
    ensures ParseKeyValue(k + " = \"" + d + "\"") == Some((k, d))
  {
    var line := k + " = \"" + d + "\"";
    var v := |k| + 4;
    var w := v + |d|;
    assert line[..|k|] == k;
    assert line[v..w] == d;
    assert line[w] == '"';
    assert KeyValueAt(line, 0, |k|, |k| + 1, v, w);
    KeyValueComplete(line, 0, |k|, |k| + 1, v, w);
    assert !IsBlank(line[0]);
    SpanExact(line, 0, 0, IsBlank);
  }

  /** An entry's canonical line, at the cursor, gives back that entry and the prefix it leaves. */
  lemma StepOfEntryLine(e: Entry, p: string, rest: seq<string>)
    requires EntryUnder(e, p)
    ensures Step([EntryLine(e, p)] + rest, p) == (Some(e), NextPrefix(e, p))
  {
    match e {
      case Marker(n) =>
        HeaderLineParses(n);
      case Value(k, d) =>
        StepOfValueLine(k, d, p, rest);
    }
  }

  lemma StepOfValueLine(k: string, d: string, p: string, rest: seq<string>)
    requires QualifiedUnder(k, p) && ValidData(d)
    ensures Step([EntryLine(Value(k, d), p)] + rest, p) == (Some(Value(k, d)), p)
  {
    var short := k[|p| + 1..];
    var line := short + " = \"" + d + "\"";
    assert EntryLine(Value(k, d), p) == line;
    ValueLineParses(short, d);
    var ls := [line] + rest;
    assert ls[0] == line;
    assert NextKeyValue(ls) == Some(0);
    assert k == p + "." + short by {
      assert k == k[..|p| + 1] + short;
    }
  }

  /** Parsing the rendered lines of a well-scoped table gives the table back. */
  lemma {:induction false} ScanOfRender(es: seq<Entry>, p: string)
    requires WellScoped(es, p)
    ensures Scan(Render(es, p), p) == es
  {
    if es != [] {
      var e := es[0];
      var q := NextPrefix(e, p);
      var rest := Render(es[1..], q);
      var ls := [EntryLine(e, p)] + rest;
      assert Render(es, p) == ls;
      ScanOfRender(es[1..], q);
      StepOfEntryLine(e, p, rest);
      ScanCons(EntryLine(e, p), rest, p);
      assert es == [e] + es[1..];
    }
  }

  /** The table of a text is the entry made at its first line and the table of the rest. */
  lemma ScanCons(l: string, rest: seq<string>, p: string)
    ensures var s := Step([l] + rest, p);
      Scan([l] + rest, p) == Emitted(s.0) + Scan(rest, s.1)
  {
    assert ([l] + rest)[1..] == rest;
  }

  /** The canonical line of a well-formed entry has no newline and no NUL. */
  lemma EntryLineClean(e: Entry, p: string)
    requires EntryUnder(e, p)
    ensures '\n' !in EntryLine(e, p) && '\0' !in EntryLine(e, p)
  {
    match e {
      case Marker(n) =>
        assert forall c :: c in n ==> IsNameChar(c);
      case Value(k, d) =>
        var short := k[|p| + 1..];
        assert forall c :: c in short ==> IsKeyChar(c);
        assert forall c :: c in d ==> IsValueChar(c);
        assert EntryLine(e, p) == short + " = \"" + d + "\"";
    }
  }

  lemma {:induction false} RenderedLinesClean(es: seq<Entry>, p: string)
    requires WellScoped(es, p)
    ensures forall i :: 0 <= i < |Render(es, p)| ==> '\n' !in Render(es, p)[i] && '\0' !in Render(es, p)[i]
  {
    if es != [] {
      var q := NextPrefix(es[0], p);
      var rest := Render(es[1..], q);
      RenderedLinesClean(es[1..], q);
      EntryLineClean(es[0], p);
      assert Render(es, p) == [EntryLine(es[0], p)] + rest;
    }
  }

  lemma {:induction false} JoinHasNoNul(ls: seq<string>)
    requires forall i :: 0 <= i < |ls| ==> '\0' !in ls[i]
    ensures '\0' !in JoinLines(ls)
  {
    if ls != [] {
      JoinHasNoNul(ls[1..]);
    }
  }

  /** Writing out a well-scoped table and parsing the text back gives the same table. */
  lemma {:induction false} RoundTrip(es: seq<Entry>, p: string)
    requires WellScoped(es, p)
    ensures Scan(Lines(CStringContent(Serialize(es, p))), p) == es
  {
    var ls := Render(es, p);
    RenderedLinesClean(es, p);
    JoinHasNoNul(ls);
    assert CStringContent(JoinLines(ls)) == JoinLines(ls);
    LinesOfJoin(ls);
    ScanOfRender(es, p);
  }

  /** Parsing is idempotent through the canonical form, comments and layout aside. */
  lemma ParseSerializeParse(buf: string)
    ensures Parse(Serialize(Parse(buf).entries, "")) == Parse(buf)
  {
    ParseWellScoped(buf);
    RoundTrip(Parse(buf).entries, "");
  }
}

=== FILE: text.dfy ===
/** The optional result used in place of a NULL pointer. */
module Wrappers {

  /** Present or absent, in place of a NULL pointer. */
  datatype Option<+T> = None | Some(value: T)
}

/**
  Character classes and string scanning shared by the configuration parser.

  Strings are `seq<char>`.  A C string is modelled by its content up to (not
  including) the terminating NUL, so every scanning function here reads the end
  of a sequence where the C code reads the terminator.
 */
module Text {
  import opened Wrappers

  /** The blank class of the line patterns: space or tab. */
  predicate IsBlank(c: char) {
    c == ' ' || c == '\t'
  }

  predicate IsDigit(c: char) {
    '0' <= c <= '9'
  }

  /** The class `[a-zA-Z0-9]` of a key. */
  predicate IsKeyChar(c: char) {
    ('a' <= c <= 'z') || ('A' <= c <= 'Z') || IsDigit(c)
  }

  /** The class of a subsection name: a key character or a dot. */
  predicate IsNameChar(c: char) {
    IsKeyChar(c) || c == '.'
  }

  /** The class `[^\n"]` of a captured value. */
  predicate IsValueChar(c: char) {
    c != '"' && c != '\n'
  }

  /** `isspace` in the C locale, as skipped by `sscanf` before a number. */
  predicate IsSpace(c: char) {
    c == ' ' || c == '\t' || c == '\n' || c == '\U{B}' || c == '\U{C}' || c == '\r'
  }

  predicate NotNewline(c: char) {
    c != '\n'
  }

  predicate NotNul(c: char) {
    c != '\0'
  }

  /** `s[i..j]` is a run of `p`-characters. */
  predicate Run(s: string, i: nat, j: nat, p: char -> bool) {
    i <= j <= |s| && forall k :: i <= k < j ==> p(s[k])
  }

  /** Every character of `s` is in the class `p`. */
  predicate All(s: string, p: char -> bool) {
    forall i :: 0 <= i < |s| ==> p(s[i])
  }

  /** The end of the longest run of `p`-characters starting at `i`. */
  function Span(s: string, i: nat, p: char -> bool): (j: nat)
    requires i <= |s|
    ensures i <= j <= |s|
    ensures forall k :: i <= k < j ==> p(s[k])
    ensures j == |s| || !p(s[j])
    decreases |s| - i
  {
    if i == |s| || !p(s[i]) then i else Span(s, i + 1, p)
  }

  /** A run that is known to be maximal is the one `Span` finds. */
  lemma {:induction false} SpanExact(s: string, i: nat, j: nat, p: char -> bool)
    requires i <= j <= |s|
    requires forall k :: i <= k < j ==> p(s[k])
    requires j == |s| || !p(s[j])
    ensures Span(s, i, p) == j
    decreases j - i
  {
    if i < j {
      SpanExact(s, i + 1, j, p);
    }
  }

  /**
    The characters a C function sees of a buffer: everything before the first
    NUL, or the whole buffer when it holds none.
   */
  function CStringContent(buf: string): (s: string)
    ensures s <= buf
    ensures '\0' !in s
    ensures |s| == |buf| || buf[|s|] == '\0'
  {
    var n := Span(buf, 0, NotNul);
    assert forall k :: 0 <= k < n ==> buf[..n][k] == buf[k];
    buf[..n]
  }

  /**
    The lines the parser's cursor visits: the text is cut at every newline, and
    the cursor stops when it reaches the end of the text, so a final newline
    opens no further (empty) line.
   */
  function Lines(text: string): (ls: seq<string>)
    ensures forall i :: 0 <= i < |ls| ==> '\n' !in ls[i]
    decreases |text|
  {
    if text == [] then []
    else
      var n := Span(text, 0, NotNewline);
      assert forall k :: 0 <= k < n ==> text[..n][k] == text[k];
      if n == |text| then [text] else [text[..n]] + Lines(text[n + 1..])
  }

  /** Each line followed by its newline: the inverse of `Lines`. */
  function JoinLines(ls: seq<string>): string {
    if ls == [] then [] else ls[0] + "\n" + JoinLines(ls[1..])
  }

  /** Cutting newline-terminated lines apart gives the same lines back. */
  lemma {:induction false} LinesOfJoin(ls: seq<string>)
    requires forall i :: 0 <= i < |ls| ==> '\n' !in ls[i]
    ensures Lines(JoinLines(ls)) == ls
  {
    if ls != [] {
      var t := JoinLines(ls);
      var l := ls[0];
      assert t == l + ("\n" + JoinLines(ls[1..]));
      assert forall k :: 0 <= k < |l| ==> t[k] == l[k] && NotNewline(t[k]);
      assert t[|l|] == '\n';
      SpanExact(t, 0, |l|, NotNewline);
      assert t[..|l|] == l;
      assert t[|l| + 1..] == JoinLines(ls[1..]);
      LinesOfJoin(ls[1..]);
    }
  }

  /** `text` ended by a newline: unchanged when empty or already ended by one. */
  function Terminated(text: string): string {
    if text == [] || text[|text| - 1] == '\n' then text else text + "\n"
  }

  /**
    Joining the visited lines gives the text back, with a newline added only
    when the text did not already end with one.
   */
  lemma {:induction false} JoinOfLines(text: string)
    ensures JoinLines(Lines(text)) == Terminated(text)
    decreases |text|
  {
    if text != [] {
      var n := Span(text, 0, NotNewline);
      LinesCons(text);
      if n < |text| {
        var rest := text[n + 1..];
        JoinOfLines(rest);
        JoinCons(text[..n], Lines(rest));
        TerminatedCons(text, n);
      } else {
        JoinCons(text, []);
      }
    }
  }

  /** `Lines` takes off the first line, up to the first newline. */
  lemma LinesCons(text: string)
    requires text != []
    ensures var n := Span(text, 0, NotNewline);
      && (n < |text| ==> Lines(text) == [text[..n]] + Lines(text[n + 1..]))
      && (n == |text| ==> Lines(text) == [text] && Terminated(text) == text + "\n")
  {
  }

  lemma TerminatedCons(text: string, n: nat)
    requires n < |text| && text[n] == '\n'
    ensures Terminated(text) == text[..n] + "\n" + Terminated(text[n + 1..])
  {
    var rest := text[n + 1..];
    assert text == text[..n] + "\n" + rest;
    if rest != [] {
      assert rest[|rest| - 1] == text[|text| - 1];
    }
  }

  lemma JoinCons(l: string, ls: seq<string>)
    ensures JoinLines([l] + ls) == l + "\n" + JoinLines(ls)
  {
    assert ([l] + ls)[1..] == ls;
  }

  /** The index of the first element satisfying `p`, if there is one. */
  function FirstWhere<T>(xs: seq<T>, p: T -> bool): (r: Option<nat>)
    ensures r.Some? ==> r.value < |xs| && p(xs[r.value])
    ensures r.Some? ==> forall j :: 0 <= j < r.value ==> !p(xs[j])
    ensures r.None? ==> forall j :: 0 <= j < |xs| ==> !p(xs[j])
  {
    if xs == [] then None
    else if p(xs[0]) then Some(0)
    else match FirstWhere(xs[1..], p)
      case None => None
      case Some(j) => Some(j + 1)
  }
}
